=== FILE: README.md ===
# Column type inference of `virge generate table`

This project models the core of the `GenerateTable` tool of the virge command
line. The tool reads a stream of JSON records and prints a `CREATE TABLE`
statement with one column per key of the first record.

Each column is a `Column` object. It folds the record values into a small
state, one value at a time:

- three tri-state flags, `numeric`, `decimal` and `bool` (the `boolean` field here);
- a `nullable` bit;
- integer and double bounds;
- a byte-length high-water mark.

`getType` then turns that state into `BIT`, `NUMERIC(p,s)`, `INT`/`BIGINT`,
`VARCHAR(n)` or `CLOB`.

The model is functional:

- `Column.ColState` is the state, and `Column.Analyze` is one step.
- `Column.AnalyzeAll` folds a `seq<Value>` and stops at the first exception.
- `Schema.InferSchema` is the record loop of `execute`.
- `Ddl.Execute` and `Ddl.RenderCreateTable` build the statement text.

Java exceptions become `Results.Err` values:

- a `NumberFormatException` from `Long.parseLong` or `Double.parseDouble`;
- an `ArrayIndexOutOfBoundsException` from a record with more keys than the first;
- the `NullPointerException` thrown when there are no records.

Modules, one file each:

| file | module | what it holds |
|---|---|---|
| results.dfy | Results | `Option`, `Result`, the exceptions the code can throw |
| values.dfy | Values | JSON values, `Long.parseLong`, `Long.toString`, UTF-8 byte length |
| classify.dfy | Classify | `isNumeric`, `isDecimal`, `isBoolean`, `indexOf`, `equalsIgnoreCase` |
| column.dfy | Column | the column state, `analyze`, the fold and what it computes |
| sqltypes.dfy | SqlTypes | `getVarchar`, `getIntegerType`, `getPrecision`, `getScale`, `getType` |
| columntypes.dfy | ColumnTypes | what whole columns of missing, boolean or integer values resolve to |
| schema.dfy | Schema | the positional record loop of `execute` |
| ddl.dfy | Ddl | `normalizeObjectName`, the rendering loop, the whole of `execute` |
| paths.dfy | Paths | `isURL` and the table-name cut |
| scenarios.dfy | Scenarios | concrete runs showing the behaviours listed below |

The model follows the code as written, including where the code behaves
surprisingly:

- **Matching is positional.** Values are matched to columns by position in
  each record's key order, not by key name (`Schema.InferSchemaByPosition`,
  `Scenarios.PositionalMatching`). A record with more keys than the first
  throws.
- **The integer bounds are not a true minimum and maximum.** Both
  comparisons of the integer-bound update use `smallestInteger`
  (`Column.TrackInteger`, `Scenarios.LargestIntegerIsLastAboveMinimum`).
- **BIGINT is never produced.** `getIntegerType` reads the double bounds,
  which stay 0 outside decimal columns (`SqlTypes.ResolvedTypeShape`,
  `ColumnTypes.NeverBigInt`).
- **The scale is not floored at 0.** `getScale` is only capped at 8. The
  scale is negative whenever the integral part of the larger bound has
  more digits than the precision. When the `Double.toString` texts are
  short (12 characters or fewer), this happens from 10^12 up
  (`SqlTypes.ScaleOfShortTexts`, `Scenarios.ScaleGoesNegative`).
- **Zero records is an error**, not an empty table (`Ddl.ExecuteFails`).
- **A column of integers all reading "0" or "1" is BIT, not INT**
  (`ColumnTypes.IntegerColumn`).
- **Classification depends on order.** `["1","true"]` is BIT, while
  `["true","1"]` is VARCHAR(8) (`Scenarios.OrderDependence`).

The decimal separator, `Double.parseDouble` and `Double.toString` are
parameters, collected in `Column.Env`. Doubles are modelled as `real`.

## Model

| member | source | states |
|---|---|---|
| Values.ParseLong | src/main/java/com/invirgance/virge/tool/GenerateTable.java:398 | `Long.parseLong` accepts only an optional sign followed by at least one digit, and only values inside the 64-bit range; such text parses to its signed decimal value, and out-of-range digits throw |
| Values.ParseLongOfIntText | src/main/java/com/invirgance/virge/tool/GenerateTable.java:398 | parsing the `toString` of an integral number gives the number back exactly when it fits in a long, and throws otherwise |
| Values.IntTextInjective | src/main/java/com/invirgance/virge/tool/GenerateTable.java:447 | distinct integers print as distinct decimal texts, at any size |
| Values.NatTextLength | src/main/java/com/invirgance/virge/tool/GenerateTable.java:428 | `Long.toString` of a number with k + 1 decimal digits has k + 1 characters |
| Values.Utf8Length | src/main/java/com/invirgance/virge/tool/GenerateTable.java:412 | the byte length of `getBytes()` is between the character count and four times it |
| Classify.NumericTextIff | src/main/java/com/invirgance/virge/tool/GenerateTable.java:326-343 | the `isNumeric` loop accepts a string exactly when every character is a digit, the separator or a minus at index 0, and the separator occurs at most once |
| Classify.IsNumericIff | src/main/java/com/invirgance/virge/tool/GenerateTable.java:316-346 | `isNumeric` is true for every number, for strings as above, and for nothing else |
| Classify.IndexOf | src/main/java/com/invirgance/virge/tool/GenerateTable.java:358 | `indexOf` returns -1 exactly when the character is absent, and otherwise its first position |
| Classify.SeparatorAfterStartIff | src/main/java/com/invirgance/virge/tool/GenerateTable.java:358 | the `indexOf(point) > 0` test holds exactly when the text has a separator and does not start with one |
| Classify.IsDecimal | src/main/java/com/invirgance/virge/tool/GenerateTable.java:348-361 | `isDecimal` holds exactly when the column is numeric and the value is a floating number or text that holds the separator and does not start with it |
| Classify.NonDecimalParse | src/main/java/com/invirgance/virge/tool/GenerateTable.java:396-398 | a numeric text that is not decimal-shaped throws in `parseLong` exactly when it is empty, a lone "-", starts with the separator, or its value is outside the long range |
| Classify.IsBoolean | src/main/java/com/invirgance/virge/tool/GenerateTable.java:363-378 | `isBoolean` is false in a decimal column; otherwise it holds for booleans and for "0"/"1" in a numeric column; a non-boolean value passing it in a non-numeric column is the word "true" or "false" in some case |
| Classify.AsciiCaseOfBooleanWord | src/main/java/com/invirgance/virge/tool/GenerateTable.java:373-374 | every casing of "true" and "false" passes `equalsIgnoreCase` |
| Column.InitialInv | src/main/java/com/invirgance/virge/tool/GenerateTable.java:297-314 | a fresh column satisfies the invariant of reachable states |
| Column.TrackInteger | src/main/java/com/invirgance/virge/tool/GenerateTable.java:400-401 | `smallestInteger` is a running minimum, but `largestInteger` takes any value above that minimum rather than keeping the maximum, and is kept unchanged for a value at or below it |
| Column.TrackDouble | src/main/java/com/invirgance/virge/tool/GenerateTable.java:408-409 | the double bounds are a true running minimum and maximum that enclose the new value |
| Column.UpdateFlags | src/main/java/com/invirgance/virge/tool/GenerateTable.java:392-394 | a false `numeric` or `bool` and a true `decimal` are kept; otherwise `numeric`, `decimal` and `bool` become exactly what `isNumeric`, `isDecimal` and `isBoolean` answer under the flags updated before them; all flags become known; a boolean column is never decimal; nothing else changes |
| Column.TrackBounds | src/main/java/com/invirgance/virge/tool/GenerateTable.java:396-410 | a numeric column parses as a long when not decimal and as a double when decimal, throwing exactly when that parse fails; otherwise the integer bounds take in exactly the parsed long, or the double bounds exactly the parsed double, and a non-numeric column is left as it was |
| Column.Analyze | src/main/java/com/invirgance/virge/tool/GenerateTable.java:380-415 | a null or "" value sets only `nullable`; the flags are monotone; a present value sets `numeric`, `decimal` and `bool` from `isNumeric`, `isDecimal` and `isBoolean` and raises `length` to its byte length; the integer bounds take in the parsed long when the new flags are numeric and not decimal, the double bounds the parsed double when they are numeric and decimal, and otherwise neither moves; it throws exactly when the required parse fails; the invariant is kept |
| Column.AnalyzeAll | src/main/java/com/invirgance/virge/tool/GenerateTable.java:249-261 | the fold over one column keeps the invariant, keeps the flags monotone and never lowers `length` |
| Column.MaxTextLengthIsMax | src/main/java/com/invirgance/virge/tool/GenerateTable.java:412-414 | the reference length bounds every present value's byte length and is attained by one of them |
| Column.AnalyzeAllNullable | src/main/java/com/invirgance/virge/tool/GenerateTable.java:386-390 | after the fold, `nullable` holds exactly when some value was null or "" |
| Column.AnalyzeAllLength | src/main/java/com/invirgance/virge/tool/GenerateTable.java:412-414 | after the fold, `length` is the larger of its floor and the longest present value's byte length |
| Column.AnalyzeAllNumeric | src/main/java/com/invirgance/virge/tool/GenerateTable.java:392 | `numeric` ends false exactly when some present value failed `isNumeric`, and stays null exactly when every value was missing |
| Column.AnalyzeAllDecimal | src/main/java/com/invirgance/virge/tool/GenerateTable.java:393 | `decimal` ends true exactly when some decimal-shaped value arrived while every present value before it, and it, were numeric |
| Column.AnalyzeAllBoolean | src/main/java/com/invirgance/virge/tool/GenerateTable.java:394 | `bool` ends true exactly when it never went false, some value was present (or it was already true), and every present value passed `isBoolean` under the flags the fold had just set from it |
| SqlTypes.FirstBucket | src/main/java/com/invirgance/virge/tool/GenerateTable.java:443-448 | the bucket loop returns the least bucket holding the length, or the bare VARCHAR when no bucket does |
| SqlTypes.GetVarchar | src/main/java/com/invirgance/virge/tool/GenerateTable.java:439-449 | CLOB exactly past 2048 bytes, otherwise the least bucket in {8..2048} that holds the length; the bare VARCHAR is unreachable |
| SqlTypes.GetIntegerType | src/main/java/com/invirgance/virge/tool/GenerateTable.java:431-437 | BIGINT exactly when a double bound reaches the 32-bit range, INT otherwise |
| SqlTypes.LongCast | src/main/java/com/invirgance/virge/tool/GenerateTable.java:426 | the `(long)` cast of a double lands inside the long range |
| SqlTypes.GetPrecision | src/main/java/com/invirgance/virge/tool/GenerateTable.java:417-422 | the precision lies in 12..38 and, strictly inside, is the length of one bound's `Double.toString` |
| SqlTypes.GetScale | src/main/java/com/invirgance/virge/tool/GenerateTable.java:424-429 | the scale is at most 8 and below the precision |
| SqlTypes.ScaleOfShortTexts | src/main/java/com/invirgance/virge/tool/GenerateTable.java:417-429 | with `Double.toString` texts of at most 12 characters the precision is 12, and an integral part of k + 1 digits gives scale min(11 - k, 8), negative exactly from k = 12 |
| SqlTypes.GetType | src/main/java/com/invirgance/virge/tool/GenerateTable.java:451-458 | BIT whenever `bool` holds; otherwise NUMERIC with `getPrecision` and `getScale` for a decimal column, `getIntegerType` for another numeric one, and `getVarchar` for the rest |
| SqlTypes.TypeTextInjective | src/main/java/com/invirgance/virge/tool/GenerateTable.java:433-457 | the texts `getType` returns (BIT, NUMERIC(p,s), INT, BIGINT, VARCHAR(n), VARCHAR, CLOB) are distinct for distinct types, so the statement names exactly the type that was inferred |
| SqlTypes.ResolvedTypeShape | src/main/java/com/invirgance/virge/tool/GenerateTable.java:431-458 | on every reachable state BIGINT never appears, and BIT, INT, NUMERIC and text are each chosen by exactly their flags |
| ColumnTypes.MissingOnlyColumn | src/main/java/com/invirgance/virge/tool/GenerateTable.java:386-390 | a column that only saw null or "" is nullable and resolves to VARCHAR(8) |
| ColumnTypes.NeverBigInt | src/main/java/com/invirgance/virge/tool/GenerateTable.java:396-437 | any finished column is not BIGINT, its integer minimum is at most 0, and its double bounds are 0 unless it is decimal |
| ColumnTypes.BooleanWordNotNumeric | src/main/java/com/invirgance/virge/tool/GenerateTable.java:330-342 | "true" and "false" in any case never pass `isNumeric`, whatever the separator |
| ColumnTypes.BooleanColumn | src/main/java/com/invirgance/virge/tool/GenerateTable.java:363-378 | a column of booleans and boolean words, with one present, never throws and resolves to BIT |
| ColumnTypes.IntegralValueFacts | src/main/java/com/invirgance/virge/tool/GenerateTable.java:316-361 | an integral value is numeric, not decimal, parses as a long, and is no boolean word |
| ColumnTypes.IntegerColumn | src/main/java/com/invirgance/virge/tool/GenerateTable.java:392-402 | a column of integers never throws; it is BIT exactly when every present value reads "0" or "1" and INT otherwise; it is nullable exactly when a value is missing |
| Schema.ApplyRecord | src/main/java/com/invirgance/virge/tool/GenerateTable.java:253-260 | one record's values go to the columns of the same positions; it throws exactly when the record is longer than the column array or one of those values throws; other columns and all names are untouched |
| Schema.StepColumn | src/main/java/com/invirgance/virge/tool/GenerateTable.java:249-260 | seen from one column, a record step is one more step of that column's own fold |
| Schema.FeedByColumn | src/main/java/com/invirgance/virge/tool/GenerateTable.java:249-261 | the record loop succeeds exactly when no record is too long and every column's positional fold succeeds, and each column then holds its own fold |
| Schema.InferSchemaByPosition | src/main/java/com/invirgance/virge/tool/GenerateTable.java:249-261 | the columns exist exactly when there is a first record, no record is longer, and each positional fold succeeds; column j carries the first record's j-th key and the fold of the j-th values |
| Ddl.NormalizeObjectName | src/main/java/com/invirgance/virge/tool/GenerateTable.java:226-229 | the name is wrapped in double quotes, unescaped |
| Ddl.JoinLinesSnoc | src/main/java/com/invirgance/virge/tool/GenerateTable.java:271 | one more line adds exactly one ",\n" separator, and none before the first |
| Ddl.AppendColumn | src/main/java/com/invirgance/virge/tool/GenerateTable.java:271-282 | one pass of the loop appends the separator, then the indented quoted name, the type and " NULL" when nullable |
| Ddl.RenderCreateTable | src/main/java/com/invirgance/virge/tool/GenerateTable.java:263-285 | the buffer-appending loop produces the reference statement: header, column lines joined by ",\n", closing "\n);\n" |
| Ddl.CreateTableShape | src/main/java/com/invirgance/virge/tool/GenerateTable.java:263-285 | the statement starts with "CREATE TABLE name (\n" and ends with "\n);\n" |
| Ddl.CreateTableOfFew | src/main/java/com/invirgance/virge/tool/GenerateTable.java:263-285 | with no columns the body is empty, and with one it is that column's line |
| Ddl.ExecuteFails | src/main/java/com/invirgance/virge/tool/GenerateTable.java:249-269 | `execute` throws exactly when there is no record, a record has more keys than the first, or a column's positional fold throws |
| Ddl.ExecuteByPosition | src/main/java/com/invirgance/virge/tool/GenerateTable.java:249-285 | when it succeeds, `execute` prints one line per key of the first record, typed from the values at that key's position |
| Paths.IsUrl | src/main/java/com/invirgance/virge/tool/GenerateTable.java:79-96 | `isURL` holds exactly when a non-empty run of letters is followed by ":/", and `charAt(i+1)` never goes past the end |
| Paths.TableNameOf | src/main/java/com/invirgance/virge/tool/GenerateTable.java:108 | the table name is the prefix before the first '.', or the whole name without one |
| Paths.TableNameOfUnique | src/main/java/com/invirgance/virge/tool/GenerateTable.java:119 | the cut is the only dot-free prefix ending at the first '.', and cutting twice changes nothing |
| Scenarios.OrderDependence | src/main/java/com/invirgance/virge/tool/GenerateTable.java:392-394 | "1" then "true" is BIT, while "true" then "1" is VARCHAR(8) |
| Scenarios.OneThenTrue | src/main/java/com/invirgance/virge/tool/GenerateTable.java:392-394 | after "1" then "true" the column is boolean and not numeric |
| Scenarios.TrueThenOne | src/main/java/com/invirgance/virge/tool/GenerateTable.java:392-394 | after "true" then "1" the column is neither boolean nor numeric |
| Scenarios.LargestIntegerIsLastAboveMinimum | src/main/java/com/invirgance/virge/tool/GenerateTable.java:400-401 | after 5 then 3, `largestInteger` is 3 |
| Scenarios.WideIntegerIsInt | src/main/java/com/invirgance/virge/tool/GenerateTable.java:431-437 | a number past the 32-bit range still types as INT |
| Scenarios.LoneMinusThrows | src/main/java/com/invirgance/virge/tool/GenerateTable.java:396-398 | "-" passes `isNumeric` and then throws in `parseLong` |
| Scenarios.LeadingSeparatorThrows | src/main/java/com/invirgance/virge/tool/GenerateTable.java:358 | ".5" is not decimal, because its separator is at index 0, so it throws in `parseLong` |
| Scenarios.PastLongThrows | src/main/java/com/invirgance/virge/tool/GenerateTable.java:398 | a number past the long range throws |
| Scenarios.ScaleGoesNegative | src/main/java/com/invirgance/virge/tool/GenerateTable.java:424-429 | a decimal column whose bounds reach the long range and whose double texts are short resolves to NUMERIC(12,-7) |
| Scenarios.TextBucket | src/main/java/com/invirgance/virge/tool/GenerateTable.java:439-449 | a longest value of 10 bytes gives VARCHAR(16), and a "" value makes the column nullable |
| Scenarios.PositionalMatching | src/main/java/com/invirgance/virge/tool/GenerateTable.java:255-259 | records with the same keys in opposite orders mix their values, so both columns become text |
| Scenarios.SwappedColumnsAreText | src/main/java/com/invirgance/virge/tool/GenerateTable.java:255-259 | neither column of those records types as INT |
| Scenarios.LongerRecordThrows | src/main/java/com/invirgance/virge/tool/GenerateTable.java:257-259 | a second record with one more key throws at index 1 |
| Scenarios.NoRecords | src/main/java/com/invirgance/virge/tool/GenerateTable.java:269 | with no records there is no column array, and rendering throws |
| Scenarios.SmallTable | src/main/java/com/invirgance/virge/tool/GenerateTable.java:249-285 | a two-record run gives an INT line for "id" and a nullable VARCHAR(8) line for "name" |
| Scenarios.PeopleLines | src/main/java/com/invirgance/virge/tool/GenerateTable.java:273-282 | the exact text of those two lines |
| Scenarios.PeopleStatement | src/main/java/com/invirgance/virge/tool/GenerateTable.java:263-285 | two column lines are rendered as the header, the "id" line, ",\n", the "name" line with " NULL", and the closing |
| Scenarios.SmallTableText | src/main/java/com/invirgance/virge/tool/GenerateTable.java:249-285 | the two-record run prints exactly that statement text |
| Scenarios.DriveLetterLooksLikeUrl | src/main/java/com/invirgance/virge/tool/GenerateTable.java:79-96 | a Windows drive path such as "C:/data/people.json" looks like a URL; a relative path does not |
| Scenarios.TableNameStopsAtFirstDot | src/main/java/com/invirgance/virge/tool/GenerateTable.java:119 | "people.2024.csv" gives the table name "people" |

## Left out

- `Virge.java` (`main`, `exit`, the tool registry) and `Tool.java` are not part of this model. They are process plumbing with no inference logic.
- `parse`, `getSource` and `detectInput`: argument parsing, file-existence checks and opening streams are I/O. Only `isURL` and the table-name cut are modelled.
- How the table name is obtained: `File.getName` and `URL.getFile` are left out. `Paths.TableNameOf` takes the name they return. `Ddl.Execute` takes the table name as a parameter. The default "TABLE" (kept when `setSource` and `setInput` are used instead of `getSource`) is one possible value of it.
- `CoerceStringsTransformer` (line 247): `detectTypes` is never set, and the transformer belongs to another library.
- The printing of the statement and of the empty comment buffer: `Ddl.Execute` returns the text instead.
- `Double.parseDouble` and `Double.toString` are parameters, and doubles are exact `real` values. NaN, infinities, -0.0 and rounding are not modelled.
- SqlTypes.GetPrecision: its contract only bounds the result, because `Double.toString` is a parameter.
- SqlTypes.GetScale: its contract only bounds the result, for the same reason.
- Classify.NonDecimalParse: assumes the locale's decimal separator is neither a digit nor a sign; real locales use '.', ',' or a similar mark.
- ColumnTypes.IntegralValueFacts: assumes a separator that is neither a digit nor '-', for the same reason.
- ColumnTypes.IntegralFold: assumes a separator that is neither a digit nor '-', for the same reason.
- ColumnTypes.IntegerColumn: assumes a separator that is neither a digit nor '-', for the same reason.
- Classify.IsBoolean: its own contract is one-directional in places. Its effect on a column is stated exactly by `Column.UpdateFlags` and `Column.AnalyzeAllBoolean`, and for whole columns by `ColumnTypes.BooleanColumn` and `ColumnTypes.IntegerColumn`.
- `Character.isDigit`, `Character.isLetter` and the digits `Long.parseLong` accepts are modelled on ASCII only. Java also accepts other Unicode digits and letters.
- `equalsIgnoreCase` folds ASCII letters plus the four non-ASCII characters that fold onto ASCII letters (the long s, the dotless i, the Kelvin sign and the dotted capital I). Only the long s bears on "false". Other Unicode case mappings are not modelled.
- `getBytes()` is taken as UTF-8, the default charset of current JDKs. Other platform charsets are not modelled.
- `getBytes()` cannot build an array longer than `Integer.MAX_VALUE`, so for such a value the JVM throws. The model has no such limit and gives the full byte length. `length` itself never overflows, because it only ever takes an array length.
- The JSON value kinds are null, boolean, integral number, floating number (kept as its `toString` text) and string. Nested objects and arrays are not modelled.
- The order of `keySet()` iteration is the order of a record's pairs. The JSON library's map ordering is not part of this model.

=== FILE: classify.dfy ===
/** The per-value tests of `GenerateTable.Column`: `isNumeric`, `isDecimal`
    and `isBoolean`. The decimal separator, which the source reads from the
    default locale, is a parameter. */
module Classify {
  import opened Values

  /** The character test of the `isNumeric` loop: a digit, the separator,
      or a minus sign in first position. */
  predicate NumericChar(s: string, sep: char, i: int)
    requires 0 <= i < |s|
  {
    IsDigit(s[i]) || s[i] == sep || (s[i] == '-' && i == 0)
  }

  /** The `isNumeric` loop from index `i` on, having counted `periods`
      separators so far: it stops with false at the first bad character
      and otherwise accepts when at most one separator was counted. */
  function ScanNumeric(s: string, sep: char, i: nat, periods: nat): bool
    requires i <= |s|
    decreases |s| - i
  {
    if i == |s| then periods <= 1
    else if !NumericChar(s, sep, i) then false
    else ScanNumeric(s, sep, i + 1, if s[i] == sep then periods + 1 else periods)
  }

  /** `isNumeric` on a `String`. */
  function NumericText(s: string, sep: char): bool {
    ScanNumeric(s, sep, 0, 0)
  }

  lemma {:induction false} ScanNumericIff(s: string, sep: char, i: nat, periods: nat)
    requires i <= |s|
    ensures ScanNumeric(s, sep, i, periods)
        <==> (forall j :: i <= j < |s| ==> NumericChar(s, sep, j)) && periods + multiset(s[i..])[sep] <= 1
    decreases |s| - i
  {
    if i < |s| {
      assert s[i..] == [s[i]] + s[i + 1..];
      ScanNumericIff(s, sep, i + 1, if s[i] == sep then periods + 1 else periods);
    }
  }

  /** A string is numeric exactly when every character is a digit, the
      separator or a leading minus, and the separator occurs at most once. */
  lemma NumericTextIff(s: string, sep: char)
    ensures NumericText(s, sep)
        <==> (forall i :: 0 <= i < |s| ==> NumericChar(s, sep, i)) && multiset(s)[sep] <= 1
  {
    ScanNumericIff(s, sep, 0, 0);
    assert s[0..] == s;
  }

  /** `isNumeric`: every `Number` is numeric, a `String` is when its
      characters pass the scan, anything else is not. */
  function IsNumeric(v: Value, sep: char): bool {
    match v
    case Int(_) => true
    case Dec(_) => true
    case Str(s) => NumericText(s, sep)
    case _ => false
  }

  /** Every number is numeric, a string is when its characters are digits,
      the separator or a leading minus with at most one separator, and
      nothing else is. */
  lemma IsNumericIff(v: Value, sep: char)
    ensures IsNumeric(v, sep)
        <==> (|| v.Int? || v.Dec?
              || (&& v.Str?
                  && (forall i :: 0 <= i < |v.s| ==> NumericChar(v.s, sep, i))
                  && multiset(v.s)[sep] <= 1))
  {
    if v.Str? {
      NumericTextIff(v.s, sep);
    }
  }

  /** `String.indexOf(char)`: the first index of `c` in `s`, or -1. */
  function IndexOf(s: string, c: char): (r: int)
    ensures -1 <= r < |s|
    ensures r == -1 <==> c !in s
    ensures r >= 0 ==> s[r] == c && c !in s[..r]
  {
    if |s| == 0 then -1
    else if s[0] == c then 0
    else
      var k := IndexOf(s[1..], c);
      assert k >= 0 ==> s[..k + 1] == [s[0]] + s[1..][..k];
      if k < 0 then -1 else k + 1
  }

  /** The separator test of `isDecimal`: the first separator is not at index 0. */
  lemma SeparatorAfterStartIff(s: string, sep: char)
    ensures IndexOf(s, sep) > 0 <==> sep in s && s[0] != sep
  {
  }

  /** A value that `isDecimal` accepts in a numeric column: a floating
      `Number`, or a string whose first separator is past index 0. */
  predicate DecimalShaped(v: Value, sep: char) {
    v.Dec? || (v.Str? && IndexOf(v.s, sep) > 0)
  }

  /** `isDecimal`, given the column's (already updated) `numeric` flag. */
  function IsDecimal(v: Value, numeric: bool, sep: char): (r: bool)
    ensures r <==> numeric && DecimalShaped(v, sep)
    ensures r <==> numeric && (v.Dec? || (v.Str? && sep in v.s && v.s[0] != sep))
  {
    if !numeric then false
    else if v.Dec? then true
    else v.Str? && IndexOf(v.s, sep) > 0
  }

  /** A numeric text that is not decimal-shaped goes to `Long.parseLong`,
      which throws exactly when the text is empty, a lone minus, starts
      with the separator, or holds a value outside the long range. The
      separator of a real locale is never a digit or a sign. */
  lemma NonDecimalParse(s: string, sep: char)
    requires !IsDigit(sep) && sep != '-' && sep != '+'
    requires NumericText(s, sep) && !DecimalShaped(Str(s), sep)
    ensures ParseLong(s).None? <==>
      || s == "" || s == "-" || s[0] == sep
      || (AllDigits(s) && !InLong(DigitsValue(s)))
      || (s[0] == '-' && AllDigits(s[1..]) && !InLong(-(DigitsValue(s[1..]) as int)))
  {
    NumericTextIff(s, sep);
    SeparatorAfterStartIff(s, sep);
    if s != "" && s[0] != sep {
      assert sep !in s;
      assert forall i :: 1 <= i < |s| ==> NumericChar(s, sep, i) && s[i] != sep;
      if s[0] == '-' {
        assert AllDigits(s[1..]) by {
          assert forall i :: 0 <= i < |s[1..]| ==> s[1..][i] == s[i + 1];
        }
      } else {
        assert NumericChar(s, sep, 0);
        assert AllDigits(s);
      }
    }
  }

  /** `Character.toUpperCase` on ASCII letters and on the two non-ASCII
      characters that upper-case to an ASCII letter: the long s and the
      dotless i. Only the long s bears on "false". */
  function ToUpper(c: char): char {
    if 'a' <= c <= 'z' then (c as int - 32) as char
    else if c == '\U{017F}' then 'S'
    else if c == '\U{0131}' then 'I'
    else c
  }

  /** `Character.toLowerCase` on ASCII letters, the Kelvin sign and the
      dotted capital I. */
  function ToLower(c: char): char {
    if 'A' <= c <= 'Z' then (c as int + 32) as char
    else if c == '\U{212A}' then 'k'
    else if c == '\U{0130}' then 'i'
    else c
  }

  /** The per-character test of `String.equalsIgnoreCase`. */
  predicate CharEqualsIgnoreCase(a: char, b: char) {
    a == b || ToUpper(a) == ToUpper(b) || ToLower(ToUpper(a)) == ToLower(ToUpper(b))
  }

  predicate EqualsIgnoreCase(a: string, b: string) {
    |a| == |b| && forall i :: 0 <= i < |a| ==> CharEqualsIgnoreCase(a[i], b[i])
  }

  /** The text `isBoolean` accepts from any column: "true" or "false" in any case. */
  predicate BooleanWord(s: string) {
    EqualsIgnoreCase(s, "true") || EqualsIgnoreCase(s, "false")
  }

  /** `isBoolean`, given the column's (already updated) `numeric` and
      `decimal` flags. */
  function IsBoolean(v: Value, numeric: bool, decimal: bool): (r: bool)
    requires !v.Null?
    ensures decimal ==> !r
    ensures !decimal && v.Bool? ==> r
    ensures !decimal && numeric && v.Str? && (v.s == "0" || v.s == "1") ==> r
    ensures r && !v.Bool? && !numeric ==> v.Str? && BooleanWord(v.s)
  {
    if decimal then false
    else if v.Bool? then true
    else if numeric && ToText(v) == "1" then true
    else if numeric && ToText(v) == "0" then true
    else v.Str? && BooleanWord(v.s)
  }

  /** Every casing of "true" and "false" is a boolean word. */
  lemma AsciiCaseOfBooleanWord(s: string)
    requires |s| == 4 || |s| == 5
    requires forall i :: 0 <= i < |s| ==> ToLower(s[i]) == (if |s| == 4 then "true" else "false")[i]
    ensures BooleanWord(s)
  {
    var w := if |s| == 4 then "true" else "false";
    forall i | 0 <= i < |s|
      ensures CharEqualsIgnoreCase(s[i], w[i])
    {
      if s[i] != w[i] {
        assert 'A' <= s[i] <= 'Z' || s[i] == '\U{212A}' || s[i] == '\U{0130}';
      }
    }
  }
}

=== FILE: column.dfy ===
/** The state of `GenerateTable.Column` and its fold step `analyze`, with the
    invariants the fold keeps and what the folded flags and counters mean
    for the whole stream of values a column has seen. */
module Column {
  import opened Results
  import opened Values
  import opened Classify

  /** A `java.lang.Boolean` field: null until the first non-empty value. */
  datatype Tri = Unknown | Yes | No

  function FromBool(b: bool): Tri {
    if b then Yes else No
  }

  /** What the analysis takes from the JDK and the locale: the decimal
      separator of `DecimalFormatSymbols`, `Double.parseDouble` (None where
      it throws NumberFormatException) and `Double.toString`. */
  datatype Env = Env(separator: char, parseDouble: string -> Option<real>, showDouble: real -> string)

  /** The fields of one `Column` besides its name. */
  datatype ColState = ColState(
    numeric: Tri,
    decimal: Tri,
    boolean: Tri,
    nullable: bool,
    smallestInteger: int,
    largestInteger: int,
    smallestDouble: real,
    largestDouble: real,
    length: int)

  /** A fresh column: null flags, zero bounds, and the minimum length of 8. */
  const Initial: ColState := ColState(Unknown, Unknown, Unknown, false, 0, 0, 0.0, 0.0, 8)

  /** The values `analyze` treats as missing: null and the empty string. */
  predicate IsNullOrEmpty(v: Value) {
    v.Null? || v == Str("")
  }

  function Max(a: int, b: int): int {
    if a < b then b else a
  }

  /** What holds of every state the fold reaches from `Initial`. */
  predicate Inv(st: ColState) {
    && (st.numeric == Unknown <==> st.decimal == Unknown)
    && (st.numeric == Unknown <==> st.boolean == Unknown)
    && (st.numeric == Unknown ==> st.smallestInteger == 0 && st.largestInteger == 0 && st.length == 8)
    && st.smallestInteger <= 0
    && st.smallestDouble <= 0.0 <= st.largestDouble
    && (st.decimal != Yes ==> st.smallestDouble == 0.0 && st.largestDouble == 0.0)
    && (st.boolean == Yes ==> st.decimal == No)
    && st.length >= 8
  }

  lemma InitialInv()
    ensures Inv(Initial)
  {
  }

  /** The integer-bound update as written: both comparisons are made
      against `smallestInteger`, so `largestInteger` takes any value above
      the running minimum rather than the running maximum. */
  function TrackInteger(st: ColState, n: int): (r: ColState)
    ensures r.smallestInteger <= n && r.smallestInteger <= st.smallestInteger
    ensures r.smallestInteger == n || r.smallestInteger == st.smallestInteger
    ensures r.largestInteger == n || r.largestInteger == st.largestInteger
    ensures n > st.smallestInteger ==> r.largestInteger == n
    ensures n <= st.smallestInteger ==> r.largestInteger == st.largestInteger
    ensures r.(smallestInteger := st.smallestInteger, largestInteger := st.largestInteger) == st
  {
    var smallest := if n < st.smallestInteger then n else st.smallestInteger;
    var largest := if n > smallest then n else st.largestInteger;
    st.(smallestInteger := smallest, largestInteger := largest)
  }

  /** The double-bound update: a true running minimum and maximum. */
  function TrackDouble(st: ColState, d: real): (r: ColState)
    ensures r.smallestDouble <= d <= r.largestDouble
    ensures r.smallestDouble <= st.smallestDouble && st.largestDouble <= r.largestDouble
    ensures r.smallestDouble == d || r.smallestDouble == st.smallestDouble
    ensures r.largestDouble == d || r.largestDouble == st.largestDouble
    ensures r.(smallestDouble := st.smallestDouble, largestDouble := st.largestDouble) == st
  {
    var smallest := if d < st.smallestDouble then d else st.smallestDouble;
    var largest := if d > st.largestDouble then d else st.largestDouble;
    st.(smallestDouble := smallest, largestDouble := largest)
  }

  /** The three flag updates of `analyze` for a present value: a flag that
      has gone false (or, for `decimal`, true) keeps its value, and any
      other is recomputed from the value and the flags updated before it. */
  function UpdateFlags(st: ColState, v: Value, sep: char): (r: ColState)
    requires !v.Null?
    ensures r.numeric == Yes <==> st.numeric != No && IsNumeric(v, sep)
    ensures r.decimal == Yes <==> st.decimal == Yes || (r.numeric == Yes && DecimalShaped(v, sep))
    ensures r.boolean == Yes <==> st.boolean != No && IsBoolean(v, r.numeric == Yes, r.decimal == Yes)
    ensures r.numeric != Unknown && r.decimal != Unknown && r.boolean != Unknown
    ensures st.boolean == No ==> r.boolean == No
    ensures r.boolean == Yes ==> r.decimal == No
    ensures r.(numeric := st.numeric, decimal := st.decimal, boolean := st.boolean) == st
  {
    var numeric := if st.numeric != No then FromBool(IsNumeric(v, sep)) else No;
    var decimal := if st.decimal != Yes then FromBool(IsDecimal(v, numeric == Yes, sep)) else Yes;
    var boolean := if st.boolean != No then FromBool(IsBoolean(v, numeric == Yes, decimal == Yes)) else No;
    st.(numeric := numeric, decimal := decimal, boolean := boolean)
  }

  /** The bound updates of `analyze`: a numeric column parses the text as a
      long when it is not decimal and as a double when it is, and a failed
      parse throws. */
  function TrackBounds(st: ColState, text: string, env: Env): (r: Result<ColState>)
    ensures r.Err? <==>
      || (st.numeric == Yes && st.decimal == No && ParseLong(text).None?)
      || (st.numeric == Yes && st.decimal == Yes && env.parseDouble(text).None?)
    ensures r.Err? ==> r.failure == NumberFormat(text)
    ensures r.Ok? ==> r.value.(smallestInteger := st.smallestInteger, largestInteger := st.largestInteger,
                               smallestDouble := st.smallestDouble, largestDouble := st.largestDouble) == st
    ensures r.Ok? ==> r.value.smallestInteger <= st.smallestInteger
    ensures r.Ok? ==> r.value.smallestDouble <= st.smallestDouble && st.largestDouble <= r.value.largestDouble
    ensures r.Ok? && st.decimal != Yes ==> r.value.smallestDouble == st.smallestDouble && r.value.largestDouble == st.largestDouble
    // the parsed value is the one the bounds take in
    ensures r.Ok? && st.numeric == Yes && st.decimal == No ==> ParseLong(text).Some? && r == Ok(TrackInteger(st, ParseLong(text).value))
    ensures r.Ok? && st.numeric == Yes && st.decimal == Yes ==> env.parseDouble(text).Some? && r == Ok(TrackDouble(st, env.parseDouble(text).value))
    ensures st.numeric != Yes ==> r == Ok(st)
  {
    if st.numeric == Yes && st.decimal == No then
      match ParseLong(text)
      case None => Err(NumberFormat(text))
      case Some(n) => Ok(TrackInteger(st, n))
    else if st.numeric == Yes && st.decimal == Yes then
      match env.parseDouble(text)
      case None => Err(NumberFormat(text))
      case Some(d) => Ok(TrackDouble(st, d))
    else Ok(st)
  }

  /** `Column.analyze`: fold one value into the column. */
  function Analyze(st: ColState, v: Value, env: Env): (r: Result<ColState>)
    // a missing value marks the column nullable and changes nothing else
    ensures IsNullOrEmpty(v) ==> r.Ok? && r.value.nullable && r.value.(nullable := st.nullable) == st
    // the flags only move one way
    ensures r.Ok? && st.numeric == No ==> r.value.numeric == No
    ensures r.Ok? && st.boolean == No ==> r.value.boolean == No
    ensures r.Ok? && st.decimal == Yes ==> r.value.decimal == Yes
    // a present value classifies the column and widens its length
    ensures !IsNullOrEmpty(v) && r.Ok? ==>
      && r.value.nullable == st.nullable
      && (r.value.numeric == Yes <==> st.numeric != No && IsNumeric(v, env.separator))
      && r.value.numeric != Unknown
      && (r.value.decimal == Yes <==> st.decimal == Yes || (r.value.numeric == Yes && DecimalShaped(v, env.separator)))
      && r.value.decimal != Unknown && r.value.boolean != Unknown
      && (r.value.boolean == Yes <==> st.boolean != No && IsBoolean(v, r.value.numeric == Yes, r.value.decimal == Yes))
      && r.value.length == Max(st.length, Utf8Length(ToText(v)))
    // and moves the bounds by its parsed long or double, and only then
    ensures !IsNullOrEmpty(v) && r.Ok? && r.value.numeric == Yes && r.value.decimal == No ==>
      && ParseLong(ToText(v)).Some?
      && r.value.smallestInteger == TrackInteger(st, ParseLong(ToText(v)).value).smallestInteger
      && r.value.largestInteger == TrackInteger(st, ParseLong(ToText(v)).value).largestInteger
    ensures !IsNullOrEmpty(v) && r.Ok? && r.value.numeric == Yes && r.value.decimal == Yes ==>
      && env.parseDouble(ToText(v)).Some?
      && r.value.smallestDouble == TrackDouble(st, env.parseDouble(ToText(v)).value).smallestDouble
      && r.value.largestDouble == TrackDouble(st, env.parseDouble(ToText(v)).value).largestDouble
    ensures r.Ok? && !(r.value.numeric == Yes && r.value.decimal == No) ==>
      r.value.smallestInteger == st.smallestInteger && r.value.largestInteger == st.largestInteger
    ensures r.Ok? && !(r.value.numeric == Yes && r.value.decimal == Yes) ==>
      r.value.smallestDouble == st.smallestDouble && r.value.largestDouble == st.largestDouble
    // the parse of a value that passed isNumeric is the only thing that throws
    ensures r.Err? <==>
      && !IsNullOrEmpty(v)
      && st.numeric != No && IsNumeric(v, env.separator)
      && (if st.decimal == Yes || DecimalShaped(v, env.separator)
          then env.parseDouble(ToText(v)).None?
          else ParseLong(ToText(v)).None?)
    ensures r.Err? ==> r.failure == NumberFormat(ToText(v))
    ensures Inv(st) && r.Ok? ==> Inv(r.value)
  {
    if IsNullOrEmpty(v) then Ok(st.(nullable := true))
    else
      var text := ToText(v);
      match TrackBounds(UpdateFlags(st, v, env.separator), text, env)
      case Err(e) => Err(e)
      case Ok(s) => Ok(s.(length := Max(s.length, Utf8Length(text))))
  }

  /** The values of a column folded in order with `analyze`, stopping at the
      first exception. */
  function AnalyzeAll(st: ColState, vs: seq<Value>, env: Env): (r: Result<ColState>)
    ensures Inv(st) && r.Ok? ==> Inv(r.value)
    ensures r.Ok? && st.numeric == No ==> r.value.numeric == No
    ensures r.Ok? && st.boolean == No ==> r.value.boolean == No
    ensures r.Ok? && st.decimal == Yes ==> r.value.decimal == Yes
    ensures r.Ok? ==> r.value.length >= st.length
    decreases |vs|
  {
    if |vs| == 0 then Ok(st)
    else
      match Analyze(st, vs[0], env)
      case Err(e) => Err(e)
      case Ok(s) => AnalyzeAll(s, vs[1..], env)
  }

  /** Reference definition: the longest byte rendering among the present values. */
  function MaxTextLength(vs: seq<Value>): nat
    decreases |vs|
  {
    if |vs| == 0 then 0
    else Max(if IsNullOrEmpty(vs[0]) then 0 else Utf8Length(ToText(vs[0])), MaxTextLength(vs[1..]))
  }

  /** `MaxTextLength` bounds every present value and is reached by one of them. */
  lemma {:induction false} MaxTextLengthIsMax(vs: seq<Value>)
    ensures forall i :: 0 <= i < |vs| && !IsNullOrEmpty(vs[i]) ==> Utf8Length(ToText(vs[i])) <= MaxTextLength(vs)
    ensures MaxTextLength(vs) == 0 || exists i :: 0 <= i < |vs| && !IsNullOrEmpty(vs[i]) && Utf8Length(ToText(vs[i])) == MaxTextLength(vs)
    decreases |vs|
  {
    if |vs| > 0 {
      MaxTextLengthIsMax(vs[1..]);
      forall i | 1 <= i < |vs| && !IsNullOrEmpty(vs[i])
        ensures Utf8Length(ToText(vs[i])) <= MaxTextLength(vs)
      {
        assert vs[i] == vs[1..][i - 1];
      }
      if MaxTextLength(vs) != 0 && (IsNullOrEmpty(vs[0]) || Utf8Length(ToText(vs[0])) != MaxTextLength(vs)) {
        var j :| 0 <= j < |vs[1..]| && !IsNullOrEmpty(vs[1..][j]) && Utf8Length(ToText(vs[1..][j])) == MaxTextLength(vs[1..]);
        assert vs[j + 1] == vs[1..][j];
      }
    }
  }

  /** The fold marks the column nullable exactly when some value is missing. */
  lemma {:induction false} AnalyzeAllNullable(st: ColState, vs: seq<Value>, env: Env)
    requires AnalyzeAll(st, vs, env).Ok?
    ensures AnalyzeAll(st, vs, env).value.nullable
        <==> st.nullable || exists i :: 0 <= i < |vs| && IsNullOrEmpty(vs[i])
    decreases |vs|
  {
    if |vs| > 0 {
      var s :| Analyze(st, vs[0], env) == Ok(s);
      AnalyzeAllNullable(s, vs[1..], env);
      if exists i :: 0 <= i < |vs[1..]| && IsNullOrEmpty(vs[1..][i]) {
        var i :| 0 <= i < |vs[1..]| && IsNullOrEmpty(vs[1..][i]);
        assert vs[i + 1] == vs[1..][i];
      }
      if exists i :: 0 <= i < |vs| && IsNullOrEmpty(vs[i]) {
        var i :| 0 <= i < |vs| && IsNullOrEmpty(vs[i]);
        if i > 0 {
          assert vs[1..][i - 1] == vs[i];
        }
      }
    }
  }

  /** The folded length is the floor it started from widened by the longest
      present value. */
  lemma {:induction false} AnalyzeAllLength(st: ColState, vs: seq<Value>, env: Env)
    requires st.length >= 0
    requires AnalyzeAll(st, vs, env).Ok?
    ensures AnalyzeAll(st, vs, env).value.length == Max(st.length, MaxTextLength(vs))
    decreases |vs|
  {
    if |vs| > 0 {
      var s :| Analyze(st, vs[0], env) == Ok(s);
      AnalyzeAllLength(s, vs[1..], env);
      assert AnalyzeAll(st, vs, env) == AnalyzeAll(s, vs[1..], env);
      assert s.length == Max(st.length, if IsNullOrEmpty(vs[0]) then 0 else Utf8Length(ToText(vs[0])));
    }
  }

  /** `numeric` ends false exactly when it started false or some present
      value failed `isNumeric`, and stays null exactly when every value was
      missing. */
  lemma {:induction false} AnalyzeAllNumeric(st: ColState, vs: seq<Value>, env: Env)
    requires AnalyzeAll(st, vs, env).Ok?
    ensures AnalyzeAll(st, vs, env).value.numeric == No
        <==> st.numeric == No || exists i :: 0 <= i < |vs| && !IsNullOrEmpty(vs[i]) && !IsNumeric(vs[i], env.separator)
    ensures AnalyzeAll(st, vs, env).value.numeric == Unknown
        <==> st.numeric == Unknown && forall i :: 0 <= i < |vs| ==> IsNullOrEmpty(vs[i])
    decreases |vs|
  {
    if |vs| > 0 {
      var s :| Analyze(st, vs[0], env) == Ok(s);
      AnalyzeAllNumeric(s, vs[1..], env);
      assert forall i :: 1 <= i < |vs| ==> vs[i] == vs[1..][i - 1];
      if exists i :: 0 <= i < |vs[1..]| && !IsNullOrEmpty(vs[1..][i]) && !IsNumeric(vs[1..][i], env.separator) {
        var i :| 0 <= i < |vs[1..]| && !IsNullOrEmpty(vs[1..][i]) && !IsNumeric(vs[1..][i], env.separator);
        assert vs[i + 1] == vs[1..][i];
      }
    }
  }

  /** The present values among the first `k + 1` all passed `isNumeric`,
      starting from a column that was not already non-numeric. */
  predicate NumericThrough(st: ColState, vs: seq<Value>, k: int, sep: char)
    requires k < |vs|
  {
    st.numeric != No && forall j :: 0 <= j <= k ==> IsNullOrEmpty(vs[j]) || IsNumeric(vs[j], sep)
  }

  /** The first step of the fold, as `decimal` and `numeric` see it. */
  lemma DecimalHead(st: ColState, vs: seq<Value>, env: Env) returns (s: ColState)
    requires |vs| > 0 && AnalyzeAll(st, vs, env).Ok?
    ensures AnalyzeAll(s, vs[1..], env) == AnalyzeAll(st, vs, env)
    ensures s.decimal == Yes <==>
      st.decimal == Yes || (DecimalShaped(vs[0], env.separator) && NumericThrough(st, vs, 0, env.separator))
    ensures s.numeric != No <==> st.numeric != No && (IsNullOrEmpty(vs[0]) || IsNumeric(vs[0], env.separator))
  {
    s :| Analyze(st, vs[0], env) == Ok(s);
  }

  /** `decimal` ends true exactly when it started true or some value of
      decimal shape arrived while the column was still numeric: a decimal
      seen after the first non-numeric value does not count, and none seen
      before it is ever forgotten. */
  lemma {:induction false} AnalyzeAllDecimal(st: ColState, vs: seq<Value>, env: Env)
    requires AnalyzeAll(st, vs, env).Ok?
    ensures AnalyzeAll(st, vs, env).value.decimal == Yes
        <==> (|| st.decimal == Yes
              || exists k :: 0 <= k < |vs| && DecimalShaped(vs[k], env.separator) && NumericThrough(st, vs, k, env.separator))
    decreases |vs|
  {
    var sep := env.separator;
    if |vs| > 0 {
      var s := DecimalHead(st, vs, env);
      var rest := vs[1..];
      AnalyzeAllDecimal(s, rest, env);
      // a witness in the tail is a witness one position further in `vs`
      if exists k :: 0 <= k < |rest| && DecimalShaped(rest[k], sep) && NumericThrough(s, rest, k, sep) {
        var k :| 0 <= k < |rest| && DecimalShaped(rest[k], sep) && NumericThrough(s, rest, k, sep);
        assert vs[k + 1] == rest[k];
        forall j | 0 <= j <= k + 1
          ensures IsNullOrEmpty(vs[j]) || IsNumeric(vs[j], sep)
        {
          if j > 0 {
            assert vs[j] == rest[j - 1];
          }
        }
        assert NumericThrough(st, vs, k + 1, sep);
      }
      // and a witness in `vs` is either the head or one in the tail
      if exists k :: 0 <= k < |vs| && DecimalShaped(vs[k], sep) && NumericThrough(st, vs, k, sep) {
        var k :| 0 <= k < |vs| && DecimalShaped(vs[k], sep) && NumericThrough(st, vs, k, sep);
        if k > 0 {
          assert rest[k - 1] == vs[k];
          assert NumericThrough(st, vs, 0, sep);
          forall j | 0 <= j <= k - 1
            ensures IsNullOrEmpty(rest[j]) || IsNumeric(rest[j], sep)
          {
            assert rest[j] == vs[j + 1];
          }
          assert NumericThrough(s, rest, k - 1, sep);
        }
      }
    }
  }

  /** Present value `k` passes `isBoolean` under the flags the fold has
      just set from it: those of the fold through `vs[..k + 1]`. */
  predicate PassesBoolean(st: ColState, vs: seq<Value>, k: int, env: Env)
    requires 0 <= k < |vs| && !IsNullOrEmpty(vs[k])
  {
    match AnalyzeAll(st, vs[..k + 1], env)
    case Ok(s) => IsBoolean(vs[k], s.numeric == Yes, s.decimal == Yes)
    case Err(_) => false
  }

  /** The fold through `k + 2` values is the fold through `k + 1` values
      of the tail, from the state the first value left. */
  lemma PrefixAfterFirst(st: ColState, vs: seq<Value>, s: ColState, k: nat, env: Env)
    requires |vs| > 0 && Analyze(st, vs[0], env) == Ok(s)
    requires k + 1 < |vs|
    ensures AnalyzeAll(st, vs[..k + 2], env) == AnalyzeAll(s, vs[1..][..k + 1], env)
  {
    assert vs[..k + 2][0] == vs[0];
    assert vs[..k + 2][1..] == vs[1..][..k + 1];
  }

  /** Some value is present exactly when the first is or one of the rest is. */
  lemma PresentSplit(vs: seq<Value>)
    requires |vs| > 0
    ensures (exists k :: 0 <= k < |vs| && !IsNullOrEmpty(vs[k]))
        <==> !IsNullOrEmpty(vs[0]) || exists k :: 0 <= k < |vs[1..]| && !IsNullOrEmpty(vs[1..][k])
  {
    if exists k :: 0 <= k < |vs| && !IsNullOrEmpty(vs[k]) {
      var k :| 0 <= k < |vs| && !IsNullOrEmpty(vs[k]);
      if k > 0 {
        assert vs[1..][k - 1] == vs[k];
      }
    }
    if exists k :: 0 <= k < |vs[1..]| && !IsNullOrEmpty(vs[1..][k]) {
      var k :| 0 <= k < |vs[1..]| && !IsNullOrEmpty(vs[1..][k]);
      assert vs[k + 1] == vs[1..][k];
    }
  }

  /** Every later present value passes `isBoolean` in the fold from `st`
      exactly when it does in the fold of the tail from `s`. */
  lemma PassesBooleanShift(st: ColState, vs: seq<Value>, s: ColState, env: Env)
    requires |vs| > 0 && Analyze(st, vs[0], env) == Ok(s)
    ensures (forall k :: 1 <= k < |vs| && !IsNullOrEmpty(vs[k]) ==> PassesBoolean(st, vs, k, env))
        <==> (forall k :: 0 <= k < |vs[1..]| && !IsNullOrEmpty(vs[1..][k]) ==> PassesBoolean(s, vs[1..], k, env))
  {
    var rest := vs[1..];
    forall k | 1 <= k < |vs| && !IsNullOrEmpty(vs[k])
      ensures PassesBoolean(st, vs, k, env) <==> PassesBoolean(s, rest, k - 1, env)
    {
      PrefixAfterFirst(st, vs, s, k - 1, env);
      assert rest[k - 1] == vs[k];
    }
    if forall k :: 0 <= k < |rest| && !IsNullOrEmpty(rest[k]) ==> PassesBoolean(s, rest, k, env) {
      forall k | 1 <= k < |vs| && !IsNullOrEmpty(vs[k])
        ensures PassesBoolean(st, vs, k, env)
      {
        assert rest[k - 1] == vs[k];
      }
    }
    if forall k :: 1 <= k < |vs| && !IsNullOrEmpty(vs[k]) ==> PassesBoolean(st, vs, k, env) {
      forall k | 0 <= k < |rest| && !IsNullOrEmpty(rest[k])
        ensures PassesBoolean(s, rest, k, env)
      {
        assert vs[k + 1] == rest[k];
      }
    }
  }

  /** `bool` ends true exactly when it never went false, the column saw a
      present value (or was already boolean), and every present value
      passed `isBoolean` under the flags it produced. */
  lemma {:induction false} AnalyzeAllBoolean(st: ColState, vs: seq<Value>, env: Env)
    requires AnalyzeAll(st, vs, env).Ok?
    ensures AnalyzeAll(st, vs, env).value.boolean == Yes
        <==> (&& st.boolean != No
              && (st.boolean == Yes || exists k :: 0 <= k < |vs| && !IsNullOrEmpty(vs[k]))
              && forall k :: 0 <= k < |vs| && !IsNullOrEmpty(vs[k]) ==> PassesBoolean(st, vs, k, env))
    decreases |vs|
  {
    if |vs| > 0 {
      var s :| Analyze(st, vs[0], env) == Ok(s);
      AnalyzeAllBoolean(s, vs[1..], env);
      assert AnalyzeAll(st, vs, env) == AnalyzeAll(s, vs[1..], env);
      PresentSplit(vs);
      PassesBooleanShift(st, vs, s, env);
      if !IsNullOrEmpty(vs[0]) {
        // the first value's own test
        assert vs[..1] == [vs[0]];
        assert AnalyzeAll(st, vs[..1], env) == Ok(s);
        assert s.boolean == Yes <==> st.boolean != No && PassesBoolean(st, vs, 0, env);
      }
    }
  }
}

=== FILE: columntypes.dfy ===
/** What type a whole column resolves to, for the kinds of value streams the
    tool is meant for: all missing, all boolean words, all integers. */
module ColumnTypes {
  import opened Results
  import opened Values
  import opened Classify
  import opened Column
  import opened SqlTypes

  /** Some value of the column is present. */
  predicate SomePresent(vs: seq<Value>) {
    exists i :: 0 <= i < |vs| && !IsNullOrEmpty(vs[i])
  }

  /** A column that only ever saw null or "" is nullable and otherwise untouched. */
  lemma {:induction false} MissingOnlyFold(st: ColState, vs: seq<Value>, env: Env)
    requires forall i :: 0 <= i < |vs| ==> IsNullOrEmpty(vs[i])
    ensures AnalyzeAll(st, vs, env) == Ok(st.(nullable := st.nullable || |vs| > 0))
    decreases |vs|
  {
    if |vs| > 0 {
      MissingOnlyFold(st.(nullable := true), vs[1..], env);
    }
  }

  /** ... so it resolves to the smallest VARCHAR, with NULL. */
  lemma MissingOnlyColumn(vs: seq<Value>, env: Env)
    requires |vs| > 0
    requires forall i :: 0 <= i < |vs| ==> IsNullOrEmpty(vs[i])
    ensures AnalyzeAll(Initial, vs, env).Ok?
    ensures AnalyzeAll(Initial, vs, env).value.nullable
    ensures GetType(AnalyzeAll(Initial, vs, env).value, env) == Varchar(8)
  {
    MissingOnlyFold(Initial, vs, env);
  }

  /** Whatever the values, a column that finishes resolves to something
      other than BIGINT, its integer minimum is never positive, and its
      double bounds stay zero unless it is decimal. */
  lemma NeverBigInt(vs: seq<Value>, env: Env)
    requires AnalyzeAll(Initial, vs, env).Ok?
    ensures GetType(AnalyzeAll(Initial, vs, env).value, env) != BigInt
    ensures AnalyzeAll(Initial, vs, env).value.smallestInteger <= 0
    ensures AnalyzeAll(Initial, vs, env).value.decimal != Yes
        ==> AnalyzeAll(Initial, vs, env).value.smallestDouble == 0.0 == AnalyzeAll(Initial, vs, env).value.largestDouble
  {
    InitialInv();
    ResolvedTypeShape(AnalyzeAll(Initial, vs, env).value, env);
  }

  /** A "true"/"false" word is never numeric, whatever the separator: its
      second and third letters differ, so one of them is neither the
      separator nor a digit. */
  lemma BooleanWordNotNumeric(s: string, sep: char)
    requires BooleanWord(s)
    ensures !NumericText(s, sep)
  {
    NumericTextIff(s, sep);
    var w := if EqualsIgnoreCase(s, "true") then "true" else "false";
    assert CharEqualsIgnoreCase(s[1], w[1]) && CharEqualsIgnoreCase(s[2], w[2]);
    assert !IsDigit(s[1]) && !IsDigit(s[2]) && s[1] != s[2];
    assert !NumericChar(s, sep, 1) || !NumericChar(s, sep, 2);
  }

  /** A value a boolean column accepts whatever came before it. */
  predicate BooleanValue(v: Value) {
    v.Bool? || (v.Str? && BooleanWord(v.s))
  }

  lemma {:induction false} BooleanFold(st: ColState, vs: seq<Value>, env: Env)
    requires Inv(st) && st.numeric != Yes && st.decimal != Yes && st.boolean != No
    requires forall i :: 0 <= i < |vs| ==> IsNullOrEmpty(vs[i]) || BooleanValue(vs[i])
    ensures AnalyzeAll(st, vs, env).Ok?
    ensures AnalyzeAll(st, vs, env).value.numeric != Yes
    ensures AnalyzeAll(st, vs, env).value.decimal != Yes
    ensures AnalyzeAll(st, vs, env).value.boolean != No
    decreases |vs|
  {
    if |vs| > 0 {
      var v := vs[0];
      if v.Str? && !IsNullOrEmpty(v) {
        BooleanWordNotNumeric(v.s, env.separator);
      }
      var r := Analyze(st, v, env);
      assert r.Ok?;
      BooleanFold(r.value, vs[1..], env);
    }
  }

  /** A column of booleans and "true"/"false" words (any case), with at
      least one present, resolves to BIT. */
  lemma BooleanColumn(vs: seq<Value>, env: Env)
    requires forall i :: 0 <= i < |vs| ==> IsNullOrEmpty(vs[i]) || BooleanValue(vs[i])
    requires SomePresent(vs)
    ensures AnalyzeAll(Initial, vs, env).Ok?
    ensures GetType(AnalyzeAll(Initial, vs, env).value, env) == Bit
  {
    BooleanFold(Initial, vs, env);
    AnalyzeAllNumeric(Initial, vs, env);
  }

  /** Text that `Long.parseLong` accepts and `isNumeric` does too: no plus
      sign and no separator. */
  predicate IntegerText(s: string, sep: char) {
    ParseLong(s).Some? && s[0] != '+' && sep !in s
  }

  /** A value an integer column accepts: a long-range integral `Number`, or
      integer text. */
  predicate IntegralValue(v: Value, sep: char) {
    (v.Int? && InLong(v.i)) || (v.Str? && IntegerText(v.s, sep))
  }

  /** Integral values whose text is exactly "0" or "1" also pass `isBoolean`. */
  predicate ZeroOne(v: Value)
    requires !v.Null?
  {
    ToText(v) == "0" || ToText(v) == "1"
  }

  /** Integral values are numeric, not decimal, parse as longs, and are
      not boolean words. */
  lemma IntegralValueFacts(v: Value, sep: char)
    requires !IsDigit(sep) && sep != '-'
    requires IntegralValue(v, sep)
    ensures IsNumeric(v, sep) && !DecimalShaped(v, sep)
    ensures ParseLong(ToText(v)).Some?
    ensures v.Str? ==> !BooleanWord(v.s)
  {
    if v.Int? {
      ParseLongOfIntText(v.i);
    } else {
      var s := v.s;
      NumericTextIff(s, sep);
      assert multiset(s)[sep] == 0;
      assert !CharEqualsIgnoreCase(s[0], 't') && !CharEqualsIgnoreCase(s[0], 'f');
    }
  }

  lemma {:induction false} IntegralFold(st: ColState, vs: seq<Value>, env: Env)
    requires !IsDigit(env.separator) && env.separator != '-'
    requires Inv(st) && st.numeric != No && st.decimal != Yes
    requires forall i :: 0 <= i < |vs| ==> IsNullOrEmpty(vs[i]) || IntegralValue(vs[i], env.separator)
    ensures AnalyzeAll(st, vs, env).Ok?
    ensures AnalyzeAll(st, vs, env).value.numeric != No
    ensures AnalyzeAll(st, vs, env).value.decimal != Yes
    ensures AnalyzeAll(st, vs, env).value.boolean != No
        <==> st.boolean != No && forall i :: 0 <= i < |vs| && !IsNullOrEmpty(vs[i]) ==> ZeroOne(vs[i])
    decreases |vs|
  {
    if |vs| > 0 {
      var v := vs[0];
      if !IsNullOrEmpty(v) {
        IntegralValueFacts(v, env.separator);
      }
      var r := Analyze(st, v, env);
      assert r.Ok?;
      assert r.value.boolean != No <==> st.boolean != No && (IsNullOrEmpty(v) || ZeroOne(v));
      IntegralFold(r.value, vs[1..], env);
      assert forall i :: 1 <= i < |vs| ==> vs[i] == vs[1..][i - 1];
    }
  }

  /** A column of integers (numbers or text), with at least one present,
      never throws and resolves to BIT when every present value reads "0"
      or "1" and to INT otherwise; it is nullable exactly when a value is
      missing. BIGINT does not appear even for values past the 32-bit range. */
  lemma IntegerColumn(vs: seq<Value>, env: Env)
    requires !IsDigit(env.separator) && env.separator != '-'
    requires forall i :: 0 <= i < |vs| ==> IsNullOrEmpty(vs[i]) || IntegralValue(vs[i], env.separator)
    requires SomePresent(vs)
    ensures AnalyzeAll(Initial, vs, env).Ok?
    ensures GetType(AnalyzeAll(Initial, vs, env).value, env) == Bit
        <==> forall i :: 0 <= i < |vs| && !IsNullOrEmpty(vs[i]) ==> ZeroOne(vs[i])
    ensures GetType(AnalyzeAll(Initial, vs, env).value, env) != Bit
        ==> GetType(AnalyzeAll(Initial, vs, env).value, env) == Integer
    ensures AnalyzeAll(Initial, vs, env).value.nullable <==> exists i :: 0 <= i < |vs| && IsNullOrEmpty(vs[i])
  {
    IntegralFold(Initial, vs, env);
    AnalyzeAllNumeric(Initial, vs, env);
    AnalyzeAllNullable(Initial, vs, env);
    ResolvedTypeShape(AnalyzeAll(Initial, vs, env).value, env);
  }
}

=== FILE: ddl.dfy ===
/** The `CREATE TABLE` text `GenerateTable.execute` builds from the finished
    columns, and the whole of `execute` from records to that text. */
module Ddl {
  import opened Results
  import opened Column
  import opened SqlTypes
  import opened Schema

  /** What one line of the statement needs: name, type text, nullability. */
  datatype ColumnDef = ColumnDef(name: string, sqlType: string, nullable: bool)

  /** `normalizeObjectName`: wrap in double quotes, with no escaping of
      quotes inside the name. */
  function NormalizeObjectName(name: string): (q: string)
    ensures |q| == |name| + 2
    ensures q[0] == '"' && q[|q| - 1] == '"'
    ensures q[1..|q| - 1] == name
  {
    "\"" + name + "\""
  }

  /** One column line: indent, quoted name, type, and " NULL" when nullable. */
  function ColumnLine(c: ColumnDef): string {
    "    " + NormalizeObjectName(c.name) + " " + c.sqlType + (if c.nullable then " NULL" else "")
  }

  function Lines(cols: seq<ColumnDef>): (ls: seq<string>)
    ensures |ls| == |cols|
    ensures forall i :: 0 <= i < |cols| ==> ls[i] == ColumnLine(cols[i])
  {
    seq(|cols|, i requires 0 <= i < |cols| => ColumnLine(cols[i]))
  }

  /** The lines separated by ",\n". */
  function JoinLines(ls: seq<string>): string
    decreases |ls|
  {
    if |ls| == 0 then ""
    else if |ls| == 1 then ls[0]
    else JoinLines(ls[..|ls| - 1]) + ",\n" + ls[|ls| - 1]
  }

  /** Reference definition of the statement. */
  function CreateTable(tableName: string, cols: seq<ColumnDef>): string {
    "CREATE TABLE " + tableName + " (\n" + JoinLines(Lines(cols)) + "\n);\n"
  }

  /** The separator `execute` writes before a column line: none before the
      first. */
  function Separator(first: bool): string {
    if first then "" else ",\n"
  }

  /** Appending one more line to joined lines adds one separator. */
  lemma JoinLinesSnoc(ls: seq<string>, l: string)
    ensures JoinLines(ls + [l]) == JoinLines(ls) + Separator(|ls| == 0) + l
  {
    assert (ls + [l])[..|ls|] == ls;
  }

  lemma AppendAssoc(a: string, b: string, c: string)
    ensures a + (b + c) == (a + b) + c
  {
  }

  /** One pass of the rendering loop: the separator unless it is the first
      column, then the column's pieces appended one by one. */
  method AppendColumn(sql: string, c: ColumnDef, first: bool) returns (out: string)
    ensures out == sql + Separator(first) + ColumnLine(c)
  {
    out := sql;
    if !first {
      out := out + ",\n";
    }
    assert out == sql + Separator(first);
    ghost var mid := out;
    var name := NormalizeObjectName(c.name);
    out := out + "    ";
    out := out + name;
    AppendAssoc(mid, "    ", name);
    out := out + " ";
    AppendAssoc(mid, "    " + name, " ");
    out := out + c.sqlType;
    AppendAssoc(mid, "    " + name + " ", c.sqlType);
    ghost var typed := "    " + name + " " + c.sqlType;
    assert out == mid + typed;
    if c.nullable {
      out := out + " ";
      out := out + "NULL";
      AppendAssoc(mid + typed, " ", "NULL");
      assert " " + "NULL" == " NULL";
      AppendAssoc(mid, typed, " NULL");
    } else {
      assert typed + "" == typed;
    }
  }

  /** The rendering loop of `execute`, appending to a buffer as the source
      does, builds the reference statement. */
  method RenderCreateTable(tableName: string, cols: seq<ColumnDef>) returns (sql: string)
    ensures sql == CreateTable(tableName, cols)
  {
    sql := "CREATE TABLE ";
    sql := sql + tableName;
    sql := sql + " (\n";
    ghost var header := sql;
    var index := 0;
    while index < |cols|
      invariant 0 <= index <= |cols|
      invariant sql == header + JoinLines(Lines(cols[..index]))
    {
      ghost var done := Lines(cols[..index]);
      ghost var line := ColumnLine(cols[index]);
      ghost var sep := Separator(index == 0);
      sql := AppendColumn(sql, cols[index], index == 0);
      assert Lines(cols[..index + 1]) == done + [line];
      JoinLinesSnoc(done, line);
      AppendAssoc(header, JoinLines(done) + sep, line);
      AppendAssoc(header, JoinLines(done), sep);
      index := index + 1;
    }
    assert cols[..index] == cols;
    sql := sql + "\n);\n";
  }

  lemma AppendParts(a: string, b: string)
    ensures (a + b)[..|a|] == a && (a + b)[|a|..] == b
  {
  }

  /** The statement opens with the table name and the parenthesis, and
      closes it. */
  lemma CreateTableShape(tableName: string, cols: seq<ColumnDef>)
    ensures var s := CreateTable(tableName, cols);
      && |s| >= 13 + |tableName| + 3 + 4
      && s[..13 + |tableName| + 3] == "CREATE TABLE " + tableName + " (\n"
      && s[|s| - 4..] == "\n);\n"
  {
    var head := "CREATE TABLE " + tableName + " (\n";
    var body := JoinLines(Lines(cols));
    AppendAssoc(head, body, "\n);\n");
    AppendParts(head, body + "\n);\n");
    AppendParts(head + body, "\n);\n");
  }

  /** With no columns the body is empty, and with one column it is exactly
      that column's line. */
  lemma CreateTableOfFew(tableName: string, cols: seq<ColumnDef>)
    ensures |cols| == 0 ==> CreateTable(tableName, cols) == "CREATE TABLE " + tableName + " (\n\n);\n"
    ensures |cols| == 1 ==> CreateTable(tableName, cols) == "CREATE TABLE " + tableName + " (\n" + ColumnLine(cols[0]) + "\n);\n"
  {
    var head := "CREATE TABLE " + tableName + " (\n";
    if |cols| == 0 {
      assert JoinLines(Lines(cols)) == "";
      assert head + "" == head;
      AppendAssoc("CREATE TABLE " + tableName, " (\n", "\n);\n");
      AppendAssoc("CREATE TABLE ", tableName, " (\n" + "\n);\n");
      AppendAssoc("CREATE TABLE ", tableName, " (\n\n);\n");
      assert " (\n" + "\n);\n" == " (\n\n);\n";
    }
  }

  /** The line of each inferred column. */
  function Definitions(cols: seq<NamedColumn>, env: Env): (defs: seq<ColumnDef>)
    ensures |defs| == |cols|
    ensures forall i :: 0 <= i < |cols| ==>
      defs[i] == ColumnDef(cols[i].name, TypeText(GetType(cols[i].state, env)), cols[i].state.nullable)
  {
    seq(|cols|, i requires 0 <= i < |cols| =>
      ColumnDef(cols[i].name, TypeText(GetType(cols[i].state, env)), cols[i].state.nullable))
  }

  /** `execute` after the source is opened: infer, then render. */
  function Execute(tableName: string, records: seq<Record>, env: Env): Result<string> {
    match InferSchema(records, env)
    case Err(e) => Err(e)
    case Ok(cols) => Ok(CreateTable(tableName, Definitions(cols, env)))
  }

  /** What makes `execute` succeed, stated per column position. */
  predicate Succeeds(records: seq<Record>, env: Env) {
    && |records| > 0
    && FitsColumns(records, |records[0]|)
    && forall j :: 0 <= j < |records[0]| ==> AnalyzeAll(Initial, ColumnValues(records, j), env).Ok?
  }

  /** The line of column `j` when every record is folded by position. */
  function PositionalDefs(records: seq<Record>, env: Env): seq<ColumnDef>
    requires Succeeds(records, env)
  {
    seq(|records[0]|, j requires 0 <= j < |records[0]| =>
      var st := AnalyzeAll(Initial, ColumnValues(records, j), env).value;
      ColumnDef(records[0][j].0, TypeText(GetType(st, env)), st.nullable))
  }

  /** `execute` throws exactly when there is no record, a record has more
      keys than the first, or some column's fold throws. */
  lemma ExecuteFails(tableName: string, records: seq<Record>, env: Env)
    ensures Execute(tableName, records, env).Err? <==> !Succeeds(records, env)
  {
    InferSchemaByPosition(records, env);
    if InferSchema(records, env).Ok? {
      assert |records| > 0;
      assert FitsColumns(records, |records[0]|);
      assert forall j :: 0 <= j < |records[0]| ==> AnalyzeAll(Initial, ColumnValues(records, j), env).Ok?;
    }
  }

  /** When it succeeds, `execute` prints one line per key of the first
      record, in that order, typed and marked nullable from the values found
      at that key's position in every record. */
  lemma ExecuteByPosition(tableName: string, records: seq<Record>, env: Env)
    requires Succeeds(records, env)
    ensures Execute(tableName, records, env) == Ok(CreateTable(tableName, PositionalDefs(records, env)))
  {
    InferSchemaByPosition(records, env);
    var cols := InferSchema(records, env).value;
    assert Definitions(cols, env) == PositionalDefs(records, env);
  }
}

=== FILE: paths.dfy ===
/** The two pure pieces of source resolution in `GenerateTable`: deciding
    whether a path is a URL, and cutting a table name out of a file name. */
module Paths {
  import Classify

  /** `Character.isLetter`, on ASCII letters. */
  predicate IsLetter(c: char) {
    ('a' <= c <= 'z') || ('A' <= c <= 'Z')
  }

  /** `path.contains(":/")`. */
  predicate ContainsColonSlash(path: string) {
    exists j :: 0 <= j < |path| - 1 && path[j] == ':' && path[j + 1] == '/'
  }

  predicate AllLetters(s: string) {
    forall j :: 0 <= j < |s| ==> IsLetter(s[j])
  }

  /** Reference definition of a URL-looking path: a non-empty run of
      letters, then ":/". */
  predicate UrlShaped(path: string) {
    exists k :: 0 < k < |path| - 1 && path[k] == ':' && path[k + 1] == '/' && AllLetters(path[..k])
  }

  /** `isURL`, with its loop: the character after the first ':' is only
      read when a ":/" somewhere guarantees it exists. */
  method IsUrl(path: string) returns (r: bool)
    ensures r <==> UrlShaped(path)
  {
    if !ContainsColonSlash(path) {
      return false;
    }
    if path[0] == ':' {
      return false;
    }
    ghost var w :| 0 <= w < |path| - 1 && path[w] == ':' && path[w + 1] == '/';
    var i := 0;
    while i < |path|
      invariant 0 <= i <= w
      invariant AllLetters(path[..i])
    {
      var c := path[i];
      if c == ':' {
        return path[i + 1] == '/';
      }
      if !IsLetter(c) {
        return false;
      }
      i := i + 1;
    }
    return false;
  }

  /** The table name cut from a file or URL file name: everything before
      the first '.', or the whole name when it has none. */
  function TableNameOf(name: string): (table: string)
    ensures '.' !in table
    ensures |table| <= |name| && table == name[..|table|]
    ensures '.' !in name ==> table == name
    ensures '.' in name ==> |table| < |name| && name[|table|] == '.'
  {
    if '.' in name then name[..Classify.IndexOf(name, '.')] else name
  }

  /** The cut is idempotent, and it is the only prefix of the name ending
      right before the first '.'. */
  lemma TableNameOfUnique(name: string, cut: string)
    requires '.' !in cut && |cut| <= |name| && cut == name[..|cut|]
    requires '.' in name ==> |cut| < |name| && name[|cut|] == '.'
    requires '.' !in name ==> cut == name
    ensures cut == TableNameOf(name)
    ensures TableNameOf(TableNameOf(name)) == TableNameOf(name)
  {
    var u := TableNameOf(name);
    if '.' in name {
      // neither prefix contains the '.' that ends the other, so they have one length
      assert forall k :: 0 <= k < |u| ==> name[k] == u[k] != '.';
      assert forall k :: 0 <= k < |cut| ==> name[k] == cut[k] != '.';
      assert |cut| == |u|;
    }
  }
}

=== FILE: results.dfy ===
/** Option and Result types shared by the model, and the exceptions the
    table generator can raise while it infers a schema. */
module Results {

  /** A Java reference that may be null. */
  datatype Option<+T> = None | Some(value: T)

  /** The exceptions `GenerateTable.execute` can throw on well-formed input. */
  datatype Failure =
    | NumberFormat(text: string)    // Long.parseLong or Double.parseDouble rejected the value's text
    | IndexOutOfBounds(index: int)  // a record has more keys than the first record had
    | NoColumns                     // no record was read, so the column array is still null

  /** The outcome of a step that may throw one of the exceptions above. */
  datatype Result<+T> = Ok(value: T) | Err(failure: Failure)
}

=== FILE: scenarios.dfy ===
/** Concrete runs of the column analysis and of `execute`, under a locale
    whose decimal separator is '.', showing the behaviours the code has
    as written. */
module Scenarios {
  import opened Results
  import opened Values
  import opened Classify
  import opened Column
  import opened SqlTypes
  import opened Schema
  import opened Ddl
  import opened Paths

  /** The type a column of these values resolves to, if the fold succeeds. */
  function TypeOf(vs: seq<Value>, env: Env): Option<SqlType> {
    match AnalyzeAll(Initial, vs, env)
    case Ok(st) => Some(GetType(st, env))
    case Err(_) => None
  }

  /** "1" then "true": "1" is numeric and, being "1" in a numeric column,
      boolean; "true" then ends the numeric flag but keeps the boolean one. */
  lemma OneThenTrue(env: Env)
    requires env.separator == '.'
    ensures AnalyzeAll(Initial, [Str("1"), Str("true")], env) == Ok(ColState(No, No, Yes, false, 0, 1, 0.0, 0.0, 8))
  {
    assert NumericText("1", '.') && IndexOf("1", '.') == -1 && ParseLong("1") == Some(1);
    assert !NumericText("true", '.') && BooleanWord("true");
    Utf8LengthOfAscii("1");
    Utf8LengthOfAscii("true");
    var one := ColState(Yes, No, Yes, false, 0, 1, 0.0, 0.0, 8);
    assert Analyze(Initial, Str("1"), env) == Ok(one);
    assert AnalyzeAll(one, [Str("true")], env) == Ok(one.(numeric := No));
    assert [Str("1"), Str("true")][1..] == [Str("true")];
  }

  /** "true" then "1": "true" makes the column non-numeric and boolean, and
      "1" in a non-numeric column is no boolean. */
  lemma TrueThenOne(env: Env)
    requires env.separator == '.'
    ensures AnalyzeAll(Initial, [Str("true"), Str("1")], env) == Ok(ColState(No, No, No, false, 0, 0, 0.0, 0.0, 8))
  {
    assert !NumericText("true", '.') && BooleanWord("true") && !BooleanWord("1");
    Utf8LengthOfAscii("1");
    Utf8LengthOfAscii("true");
    var word := ColState(No, No, Yes, false, 0, 0, 0.0, 0.0, 8);
    assert Analyze(Initial, Str("true"), env) == Ok(word);
    assert AnalyzeAll(word, [Str("1")], env) == Ok(word.(boolean := No));
    assert [Str("true"), Str("1")][1..] == [Str("1")];
  }

  /** The outcome depends on order: "1" then "true" is BIT, "true" then
      "1" is text. */
  lemma OrderDependence(env: Env)
    requires env.separator == '.'
    ensures TypeOf([Str("1"), Str("true")], env) == Some(Bit)
    ensures TypeOf([Str("true"), Str("1")], env) == Some(Varchar(8))
  {
    OneThenTrue(env);
    TrueThenOne(env);
  }

  /** The first step of that run: "5" makes the column an integer one. */
  lemma FiveFirst(env: Env)
    requires env.separator == '.'
    ensures Analyze(Initial, Str("5"), env) == Ok(ColState(Yes, No, No, false, 0, 5, 0.0, 0.0, 8))
  {
    assert NumericText("5", '.') && IndexOf("5", '.') == -1 && ParseLong("5") == Some(5);
    Utf8LengthOfAscii("5");
  }

  /** The second step: 3 is above the minimum 0, so it replaces 5. */
  lemma ThreeAfterFive(env: Env)
    requires env.separator == '.'
    ensures Analyze(ColState(Yes, No, No, false, 0, 5, 0.0, 0.0, 8), Str("3"), env)
         == Ok(ColState(Yes, No, No, false, 0, 3, 0.0, 0.0, 8))
  {
    assert NumericText("3", '.') && IndexOf("3", '.') == -1 && ParseLong("3") == Some(3);
    Utf8LengthOfAscii("3");
  }

  /** `largestInteger` is compared against `smallestInteger`, so after 5
      then 3 it holds 3. */
  lemma LargestIntegerIsLastAboveMinimum(env: Env)
    requires env.separator == '.'
    ensures AnalyzeAll(Initial, [Str("5"), Str("3")], env) == Ok(ColState(Yes, No, No, false, 0, 3, 0.0, 0.0, 8))
  {
    var five := ColState(Yes, No, No, false, 0, 5, 0.0, 0.0, 8);
    FiveFirst(env);
    ThreeAfterFive(env);
    assert AnalyzeAll(five, [Str("3")], env) == Ok(five.(largestInteger := 3));
    assert [Str("5"), Str("3")][1..] == [Str("3")];
  }

  /** A number past the 32-bit range still types as INT, never BIGINT:
      `getIntegerType` reads the double bounds, which integer values never
      move. */
  lemma WideIntegerIsInt(n: int, env: Env)
    requires IntMax < n <= LongMax
    ensures TypeOf([Int(n)], env) == Some(Integer)
  {
    ParseLongOfIntText(n);
    var t := IntText(n);
    assert t == NatText(n / 10) + [DigitChar(n % 10)];
    assert t != "0" && t != "1";
    assert !IsBoolean(Int(n), true, false);
    var st := ColState(Yes, No, No, false, 0, n, 0.0, 0.0, Max(8, Utf8Length(t)));
    assert Analyze(Initial, Int(n), env) == Ok(st);
    assert AnalyzeAll(Initial, [Int(n)], env) == Ok(st);
  }

  /** A lone minus sign passes `isNumeric` but is not a long, and throws. */
  lemma LoneMinusThrows(env: Env)
    requires env.separator == '.'
    ensures AnalyzeAll(Initial, [Str("-")], env) == Err(NumberFormat("-"))
  {
    assert NumericText("-", '.') && IndexOf("-", '.') == -1 && ParseLong("-") == None;
  }

  /** A leading separator is numeric but not decimal (its index is 0), so
      it is parsed as a long, and throws. */
  lemma LeadingSeparatorThrows(env: Env)
    requires env.separator == '.'
    ensures AnalyzeAll(Initial, [Str(".5")], env) == Err(NumberFormat(".5"))
  {
    assert NumericText(".5", '.') && IndexOf(".5", '.') == 0 && ParseLong(".5") == None;
  }

  /** An integral number past the 64-bit range throws. */
  lemma PastLongThrows(n: int, env: Env)
    requires n > LongMax
    ensures AnalyzeAll(Initial, [Int(n)], env) == Err(NumberFormat(IntText(n)))
  {
    ParseLongOfIntText(n);
  }

  /** The scale is not floored at 0: a decimal column whose bounds reach
      the long range, and whose `Double.toString` texts are short (as
      "1.0E19" is), has precision 12 while the saturated `(long)` cast has
      19 digits, so the scale is 12 - 19. */
  lemma ScaleGoesNegative(st: ColState, env: Env)
    requires st.boolean != Yes && st.numeric == Yes && st.decimal == Yes
    requires st.largestDouble >= LongMax as real
    requires |env.showDouble(st.smallestDouble)| <= 12 && |env.showDouble(st.largestDouble)| <= 12
    ensures GetType(st, env) == Numeric(12, -7)
  {
    assert Pow10(6) == 1000000;
    Pow10Add(6, 6);
    Pow10Add(6, 12);
    assert Pow10(19) == 10 * Pow10(18);
    assert IntegralMagnitude(st) == LongMax;
    ScaleOfShortTexts(st, env, 18);
  }

  /** Text columns take the least bucket holding the longest value, and a
      missing value makes the column nullable. */
  lemma TextBucket(env: Env)
    requires env.separator == '.'
    ensures AnalyzeAll(Initial, [Str("a"), Str("abcdefghij"), Str("")], env).Ok?
    ensures AnalyzeAll(Initial, [Str("a"), Str("abcdefghij"), Str("")], env).value.nullable
    ensures TypeOf([Str("a"), Str("abcdefghij"), Str("")], env) == Some(Varchar(16))
  {
    var vs := [Str("a"), Str("abcdefghij"), Str("")];
    assert !NumericText("a", '.') && !BooleanWord("a");
    Utf8LengthOfAscii("a");
    Utf8LengthOfAscii("abcdefghij");
    var text := ColState(No, No, No, false, 0, 0, 0.0, 0.0, 8);
    assert Analyze(Initial, vs[0], env) == Ok(text);
    assert Analyze(text, vs[1], env) == Ok(text.(length := 10));
    assert Analyze(text.(length := 10), vs[2], env) == Ok(text.(length := 10, nullable := true));
    assert vs[1..] == [vs[1], vs[2]] && vs[1..][1..] == [vs[2]];
    assert AnalyzeAll(Initial, vs, env) == Ok(text.(length := 10, nullable := true));
    assert GetVarchar(10) == Varchar(16);
  }

  /** A one-digit number then a one-letter word fold to text: the word is
      not numeric, and the digit (not "0" or "1") was no boolean. */
  lemma DigitThenLetter(i: int, w: string, env: Env)
    requires 2 <= i < 10 && |w| == 1 && 'a' <= w[0] <= 'z' && w[0] != 't' && w[0] != 'f'
    requires env.separator == '.'
    ensures AnalyzeAll(Initial, [Int(i), Str(w)], env) == Ok(ColState(No, No, No, false, 0, i, 0.0, 0.0, 8))
  {
    ParseLongOfIntText(i);
    assert IntText(i) == [DigitChar(i)];
    assert !NumericChar(w, '.', 0);
    assert !BooleanWord(w);
    Utf8LengthOfAscii(w);
    Utf8LengthOfAscii(IntText(i));
    var st := ColState(Yes, No, No, false, 0, i, 0.0, 0.0, 8);
    assert Analyze(Initial, Int(i), env) == Ok(st);
    assert Analyze(st, Str(w), env) == Ok(st.(numeric := No));
    assert AnalyzeAll(st, [Str(w)], env) == Ok(st.(numeric := No));
    assert [Int(i), Str(w)][1..] == [Str(w)];
  }

  /** A one-letter word then a one-digit number fold to text. */
  lemma LetterThenNumber(w: string, n: int, env: Env)
    requires |w| == 1 && 'a' <= w[0] <= 'z' && w[0] != 't' && w[0] != 'f'
    requires 0 <= n < 10
    requires env.separator == '.'
    ensures AnalyzeAll(Initial, [Str(w), Int(n)], env) == Ok(ColState(No, No, No, false, 0, 0, 0.0, 0.0, 8))
  {
    assert IntText(n) == [DigitChar(n)];
    Utf8LengthOfAscii(IntText(n));
    assert !NumericChar(w, '.', 0);
    assert !BooleanWord(w);
    Utf8LengthOfAscii(w);
    var st := ColState(No, No, No, false, 0, 0, 0.0, 0.0, 8);
    assert Analyze(Initial, Str(w), env) == Ok(st);
    assert AnalyzeAll(st, [Int(n)], env) == Ok(st);
    assert [Str(w), Int(n)][1..] == [Int(n)];
  }

  /** A column that is neither boolean nor numeric and holds nothing longer
      than 8 bytes is VARCHAR(8). */
  lemma ShortTextType(st: ColState, env: Env)
    requires st.boolean != Yes && st.numeric != Yes && st.length <= 8
    ensures GetType(st, env) == Varchar(8)
  {
  }

  /** The values two records give column `j`. */
  lemma ColumnValuesOfTwo(first: Record, second: Record, j: nat)
    ensures ColumnValues([first, second], j)
         == (if j < |first| then [first[j].1] else []) + (if j < |second| then [second[j].1] else [])
  {
    var records := [first, second];
    assert records[1..] == [second];
    assert [second][1..] == [];
    assert ColumnValues([second], j) == (if j < |second| then [second[j].1] else []) + ColumnValues([], j);
  }

  lemma PairOf<T>(s: seq<T>)
    requires |s| == 2
    ensures s == [s[0], s[1]]
  {
  }

  /** Two records holding the same keys in opposite orders. */
  const Swapped: seq<Record> := [[("id", Int(7)), ("name", Str("x"))], [("name", Str("y")), ("id", Int(8))]]

  /** The folds of the two columns of the swapped records. */
  lemma SwappedFolds(env: Env)
    requires env.separator == '.'
    ensures |Swapped[0]| == 2 && Swapped[0][0].0 == "id" && Swapped[0][1].0 == "name"
    ensures FitsColumns(Swapped, 2)
    ensures AnalyzeAll(Initial, ColumnValues(Swapped, 0), env) == Ok(ColState(No, No, No, false, 0, 7, 0.0, 0.0, 8))
    ensures AnalyzeAll(Initial, ColumnValues(Swapped, 1), env) == Ok(ColState(No, No, No, false, 0, 0, 0.0, 0.0, 8))
  {
    ColumnValuesOfTwo(Swapped[0], Swapped[1], 0);
    ColumnValuesOfTwo(Swapped[0], Swapped[1], 1);
    DigitThenLetter(7, "y", env);
    LetterThenNumber("x", 8, env);
  }

  /** Values are matched to columns by position, not by key: the second
      record's "name" value lands in column "id" and its "id" value in
      column "name", so both columns end up as text. */
  lemma PositionalMatching(env: Env)
    requires env.separator == '.'
    ensures InferSchema(Swapped, env)
         == Ok([NamedColumn("id", ColState(No, No, No, false, 0, 7, 0.0, 0.0, 8)),
                NamedColumn("name", ColState(No, No, No, false, 0, 0, 0.0, 0.0, 8))])
  {
    SwappedFolds(env);
    assert forall j :: 0 <= j < 2 ==> AnalyzeAll(Initial, ColumnValues(Swapped, j), env).Ok? by {
      forall j | 0 <= j < 2
        ensures AnalyzeAll(Initial, ColumnValues(Swapped, j), env).Ok?
      {
        if j == 0 {
        } else {
          assert j == 1;
        }
      }
    }
    InferSchemaByPosition(Swapped, env);
    var cols := InferSchema(Swapped, env).value;
    PairOf(cols);
  }

  /** ... so neither column of the swapped records is typed INT. */
  lemma SwappedColumnsAreText(env: Env)
    requires env.separator == '.'
    ensures InferSchema(Swapped, env).Ok?
    ensures forall c :: c in InferSchema(Swapped, env).value ==> GetType(c.state, env) == Varchar(8)
  {
    PositionalMatching(env);
    ShortTextType(ColState(No, No, No, false, 0, 7, 0.0, 0.0, 8), env);
    ShortTextType(ColState(No, No, No, false, 0, 0, 0.0, 0.0, 8), env);
  }

  /** A record with more keys than the first throws on the first extra key. */
  lemma LongerRecordThrows(env: Env)
    ensures InferSchema([[("a", Null)], [("a", Null), ("b", Null)]], env) == Err(IndexOutOfBounds(1))
  {
    var records := [[("a", Null)], [("a", Null), ("b", Null)]];
    var cols := NewColumns(records[0]);
    var after := [NamedColumn("a", Initial.(nullable := true))];
    assert cols == [NamedColumn("a", Initial)];
    assert cols[0 := NamedColumn("a", Initial.(nullable := true))] == after;
    assert ApplyRecord(cols, records[0], 0, env) == Ok(after);
    assert ApplyRecord(after, records[1], 0, env) == Err(IndexOutOfBounds(1));
    assert records[1..] == [records[1]];
  }

  /** With no record there is no column array to render. */
  lemma NoRecords(tableName: string, env: Env)
    ensures Execute(tableName, [], env) == Err(NoColumns)
  {
  }

  /** The records of the full run below. */
  const People: seq<Record> := [[("id", Int(7)), ("name", Str("Ann"))], [("id", Int(9)), ("name", Null)]]

  /** The "id" values: numeric, never boolean, bounds 0 and 9. */
  lemma PeopleIds(env: Env)
    requires env.separator == '.'
    ensures AnalyzeAll(Initial, [Int(7), Int(9)], env) == Ok(ColState(Yes, No, No, false, 0, 9, 0.0, 0.0, 8))
  {
    ParseLongOfIntText(7);
    ParseLongOfIntText(9);
    assert IntText(7) == "7" && IntText(9) == "9";
    var ids := ColState(Yes, No, No, false, 0, 7, 0.0, 0.0, 8);
    assert Analyze(Initial, Int(7), env) == Ok(ids);
    assert Analyze(ids, Int(9), env) == Ok(ids.(largestInteger := 9));
    assert AnalyzeAll(ids, [Int(9)], env) == Ok(ids.(largestInteger := 9));
    assert [Int(7), Int(9)][1..] == [Int(9)];
  }

  /** The "name" values: text, nullable. */
  lemma PeopleNames(env: Env)
    requires env.separator == '.'
    ensures AnalyzeAll(Initial, [Str("Ann"), Null], env) == Ok(ColState(No, No, No, true, 0, 0, 0.0, 0.0, 8))
  {
    assert !NumericText("Ann", '.') && !BooleanWord("Ann");
    Utf8LengthOfAscii("Ann");
    var names := ColState(No, No, No, false, 0, 0, 0.0, 0.0, 8);
    assert Analyze(Initial, Str("Ann"), env) == Ok(names);
    assert AnalyzeAll(names, [Null], env) == Ok(names.(nullable := true));
    assert [Str("Ann"), Null][1..] == [Null];
  }

  /** The folds of the two columns of the full run. */
  lemma PeopleFolds(env: Env)
    requires env.separator == '.'
    ensures |People[0]| == 2 && People[0][0].0 == "id" && People[0][1].0 == "name"
    ensures FitsColumns(People, 2)
    ensures AnalyzeAll(Initial, ColumnValues(People, 0), env) == Ok(ColState(Yes, No, No, false, 0, 9, 0.0, 0.0, 8))
    ensures AnalyzeAll(Initial, ColumnValues(People, 1), env) == Ok(ColState(No, No, No, true, 0, 0, 0.0, 0.0, 8))
  {
    ColumnValuesOfTwo(People[0], People[1], 0);
    ColumnValuesOfTwo(People[0], People[1], 1);
    PeopleIds(env);
    PeopleNames(env);
  }

  /** The full run succeeds. */
  lemma PeopleSucceeds(env: Env)
    requires env.separator == '.'
    ensures Succeeds(People, env)
  {
    PeopleFolds(env);
    forall j | 0 <= j < 2
      ensures AnalyzeAll(Initial, ColumnValues(People, j), env).Ok?
    {
      if j == 0 {
      } else {
        assert j == 1;
      }
    }
  }

  /** The column lines of the full run: "id" is INT and not nullable,
      "name" is VARCHAR(8) and nullable. */
  lemma PeopleColumns(env: Env)
    requires env.separator == '.'
    requires Succeeds(People, env)
    ensures PositionalDefs(People, env)
         == [ColumnDef("id", TypeText(Integer), false), ColumnDef("name", TypeText(Varchar(8)), true)]
  {
    PeopleFolds(env);
    PeopleTypes(env);
    var defs := PositionalDefs(People, env);
    PairOf(defs);
  }

  /** The types of the two finished columns. */
  lemma PeopleTypes(env: Env)
    ensures GetType(ColState(Yes, No, No, false, 0, 9, 0.0, 0.0, 8), env) == Integer
    ensures GetType(ColState(No, No, No, true, 0, 0, 0.0, 0.0, 8), env) == Varchar(8)
  {
    ShortTextType(ColState(No, No, No, true, 0, 0, 0.0, 0.0, 8), env);
  }

  /** The type texts of the full run. */
  lemma PeopleTypeTexts()
    ensures TypeText(Integer) == "INT"
    ensures TypeText(Varchar(8)) == "VARCHAR(8)"
  {
    assert IntText(8) == "8";
  }

  /** A two-column statement: the two lines joined by ",\n". */
  lemma CreateTableOfTwo(tableName: string, a: ColumnDef, b: ColumnDef)
    ensures CreateTable(tableName, [a, b])
         == "CREATE TABLE " + tableName + " (\n" + ColumnLine(a) + ",\n" + ColumnLine(b) + "\n);\n"
  {
    var ls := Lines([a, b]);
    assert ls == [ColumnLine(a), ColumnLine(b)];
    assert ls[..1] == [ColumnLine(a)];
    assert JoinLines(ls) == ColumnLine(a) + ",\n" + ColumnLine(b);
    var head := "CREATE TABLE " + tableName + " (\n";
    assert CreateTable(tableName, [a, b]) == head + (ColumnLine(a) + ",\n" + ColumnLine(b)) + "\n);\n";
  }

  /** A full run: an "id" line typed INT, then a "name" line typed
      VARCHAR(8) and marked NULL, since one record lacks a name. */
  lemma SmallTable(env: Env)
    requires env.separator == '.'
    ensures Execute("people", People, env)
         == Ok(CreateTable("people", [ColumnDef("id", TypeText(Integer), false), ColumnDef("name", TypeText(Varchar(8)), true)]))
  {
    PeopleSucceeds(env);
    PeopleColumns(env);
    ExecuteByPosition("people", People, env);
  }

  /** The text of those two lines: quoted name, type, and " NULL" only
      on the nullable one. */
  lemma PeopleLines()
    ensures ColumnLine(ColumnDef("id", "INT", false)) == "    \"id\" INT"
    ensures ColumnLine(ColumnDef("name", "VARCHAR(8)", true)) == "    \"name\" VARCHAR(8) NULL"
  {
  }

  /** The statement text of the two column lines, piece by piece. */
  lemma PeopleStatement()
    ensures CreateTable("people", [ColumnDef("id", "INT", false), ColumnDef("name", "VARCHAR(8)", true)])
         == "CREATE TABLE " + "people" + " (\n" + "    \"id\" INT" + ",\n" + "    \"name\" VARCHAR(8) NULL" + "\n);\n"
  {
    var id := ColumnDef("id", "INT", false);
    var name := ColumnDef("name", "VARCHAR(8)", true);
    CreateTableOfTwo("people", id, name);
    PeopleLines();
  }

  /** The full text `execute` prints for the two records. */
  lemma SmallTableText(env: Env)
    requires env.separator == '.'
    ensures Execute("people", People, env)
         == Ok("CREATE TABLE " + "people" + " (\n" + "    \"id\" INT" + ",\n" + "    \"name\" VARCHAR(8) NULL" + "\n);\n")
  {
    SmallTable(env);
    PeopleTypeTexts();
    PeopleStatement();
  }

  /** A drive-letter path looks like a URL to `isURL`; a relative path does not. */
  lemma DriveLetterLooksLikeUrl()
    ensures UrlShaped("C:/data/people.json")
    ensures UrlShaped("https://example.com/people.json")
    ensures !UrlShaped("data/people.json")
  {
    var drive := "C:/data/people.json";
    assert drive[1] == ':' && drive[2] == '/' && drive[..1] == "C" && AllLetters("C");
    var web := "https://example.com/people.json";
    assert web[5] == ':' && web[6] == '/' && web[..5] == "https" && AllLetters("https");
    assert ':' !in "data/people.json";
  }

  /** The table name stops at the first '.', not the last. */
  lemma TableNameStopsAtFirstDot()
    ensures TableNameOf("people.2024.csv") == "people"
    ensures TableNameOf("people") == "people"
  {
    var name := "people.2024.csv";
    assert name[6] == '.' && '.' !in name[..6] && name[..6] == "people";
    TableNameOfUnique(name, "people");
    assert '.' !in "people";
  }
}

=== FILE: schema.dfy ===
/** The record loop of `GenerateTable.execute`: the first record fixes the
    columns, and every record's values are fed to the columns BY POSITION
    in key-iteration order, whatever their keys are. */
module Schema {
  import opened Results
  import opened Values
  import opened Column

  /** A record as its key set iterates: (key, value) pairs. */
  type Record = seq<(string, Value)>

  /** A `Column`: its name and its state. */
  datatype NamedColumn = NamedColumn(name: string, state: ColState)

  /** The column array the first record creates, named by its keys. */
  function NewColumns(first: Record): (cols: seq<NamedColumn>)
    ensures |cols| == |first|
    ensures forall i :: 0 <= i < |first| ==> cols[i] == NamedColumn(first[i].0, Initial)
  {
    seq(|first|, i requires 0 <= i < |first| => NamedColumn(first[i].0, Initial))
  }

  /** The inner key loop from position `i`: value `i` goes to column `i`,
      and a key past the end of the column array throws. */
  function ApplyRecord(cols: seq<NamedColumn>, rec: Record, i: nat, env: Env): (r: Result<seq<NamedColumn>>)
    requires i <= |rec| && i <= |cols|
    ensures r.Ok? ==> |r.value| == |cols|
    ensures r.Ok? ==> forall j :: 0 <= j < |cols| ==> r.value[j].name == cols[j].name
    ensures r.Ok? ==> |rec| <= |cols|
    ensures r.Ok? ==> forall j :: 0 <= j < |cols| && (j < i || j >= |rec|) ==> r.value[j] == cols[j]
    ensures r.Ok? <==> |rec| <= |cols| && forall j :: i <= j < |rec| ==> Analyze(cols[j].state, rec[j].1, env).Ok?
    ensures r.Ok? ==> forall j :: i <= j < |rec| ==> Ok(r.value[j].state) == Analyze(cols[j].state, rec[j].1, env)
    decreases |rec| - i
  {
    if i == |rec| then Ok(cols)
    else if i >= |cols| then Err(IndexOutOfBounds(i))
    else
      match Analyze(cols[i].state, rec[i].1, env)
      case Err(e) => Err(e)
      case Ok(s) => ApplyRecord(cols[i := NamedColumn(cols[i].name, s)], rec, i + 1, env)
  }

  /** The outer record loop over an already created column array. */
  function Feed(cols: seq<NamedColumn>, records: seq<Record>, env: Env): (r: Result<seq<NamedColumn>>)
    decreases |records|
  {
    if |records| == 0 then Ok(cols)
    else
      match ApplyRecord(cols, records[0], 0, env)
      case Err(e) => Err(e)
      case Ok(next) => Feed(next, records[1..], env)
  }

  /** The positional fold of `execute`; with no record at all the column
      array stays null and rendering it throws. */
  function InferSchema(records: seq<Record>, env: Env): Result<seq<NamedColumn>> {
    if |records| == 0 then Err(NoColumns)
    else Feed(NewColumns(records[0]), records, env)
  }

  /** Reference definition: the values that reach column `i`, one from
      each record long enough to have a position `i`. */
  function ColumnValues(records: seq<Record>, i: nat): seq<Value>
    decreases |records|
  {
    if |records| == 0 then []
    else (if i < |records[0]| then [records[0][i].1] else []) + ColumnValues(records[1..], i)
  }

  /** No record has more keys than there are columns. */
  predicate FitsColumns(records: seq<Record>, n: nat) {
    forall r :: 0 <= r < |records| ==> |records[r]| <= n
  }

  /** One record's step, seen from a single column: the column's fold over
      its values continues from the state the record left it in. */
  lemma StepColumn(cols: seq<NamedColumn>, records: seq<Record>, next: seq<NamedColumn>, j: nat, env: Env)
    requires |records| > 0
    requires ApplyRecord(cols, records[0], 0, env) == Ok(next)
    requires j < |cols|
    ensures AnalyzeAll(cols[j].state, ColumnValues(records, j), env)
         == AnalyzeAll(next[j].state, ColumnValues(records[1..], j), env)
  {
    var vs := ColumnValues(records, j);
    if j < |records[0]| {
      assert vs[0] == records[0][j].1;
      assert vs[1..] == ColumnValues(records[1..], j);
    } else {
      assert vs == ColumnValues(records[1..], j);
    }
  }

  /** `Feed` succeeds exactly when no record is too long and every
      column's own fold over its positional values succeeds, and then each
      column holds the result of that fold. */
  lemma {:induction false} FeedByColumn(cols: seq<NamedColumn>, records: seq<Record>, env: Env)
    ensures Feed(cols, records, env).Ok?
        <==> (&& FitsColumns(records, |cols|)
              && forall j :: 0 <= j < |cols| ==> AnalyzeAll(cols[j].state, ColumnValues(records, j), env).Ok?)
    ensures Feed(cols, records, env).Ok? ==>
      && |Feed(cols, records, env).value| == |cols|
      && forall j :: 0 <= j < |cols| ==>
           Feed(cols, records, env).value[j]
             == NamedColumn(cols[j].name, AnalyzeAll(cols[j].state, ColumnValues(records, j), env).value)
    decreases |records|
  {
    if |records| > 0 {
      var first := ApplyRecord(cols, records[0], 0, env);
      var rest := records[1..];
      if first.Ok? {
        var next := first.value;
        FeedByColumn(next, rest, env);
        forall j | 0 <= j < |cols|
          ensures AnalyzeAll(cols[j].state, ColumnValues(records, j), env)
               == AnalyzeAll(next[j].state, ColumnValues(rest, j), env)
        {
          StepColumn(cols, records, next, j, env);
        }
        assert FitsColumns(records, |cols|) <==> FitsColumns(rest, |cols|) by {
          if FitsColumns(rest, |cols|) {
            forall r | 0 <= r < |records|
              ensures |records[r]| <= |cols|
            {
              if r > 0 {
                assert records[r] == rest[r - 1];
              }
            }
          }
          if FitsColumns(records, |cols|) {
            forall r | 0 <= r < |rest|
              ensures |rest[r]| <= |cols|
            {
              assert rest[r] == records[r + 1];
            }
          }
        }
      } else {
        // the record that threw: too long, or one of its values failed in its column
        if FitsColumns(records, |cols|) {
          assert |records[0]| <= |cols|;
          var j :| 0 <= j < |records[0]| && !Analyze(cols[j].state, records[0][j].1, env).Ok?;
          var vs := ColumnValues(records, j);
          assert vs[0] == records[0][j].1;
          assert !AnalyzeAll(cols[j].state, vs, env).Ok?;
        }
      }
    }
  }

  /** The positional schema: it exists exactly when there is a first
      record, no later record has more keys than it, and each column's fold
      over the values at its position succeeds; column `j` is then named by
      the first record's `j`-th key and holds that fold's result. */
  lemma InferSchemaByPosition(records: seq<Record>, env: Env)
    ensures InferSchema(records, env).Ok?
        <==> (&& |records| > 0
              && FitsColumns(records, |records[0]|)
              && forall j :: 0 <= j < |records[0]| ==> AnalyzeAll(Initial, ColumnValues(records, j), env).Ok?)
    ensures InferSchema(records, env).Ok? ==>
      && |InferSchema(records, env).value| == |records[0]|
      && forall j :: 0 <= j < |records[0]| ==>
           InferSchema(records, env).value[j]
             == NamedColumn(records[0][j].0, AnalyzeAll(Initial, ColumnValues(records, j), env).value)
  {
    if |records| > 0 {
      FeedByColumn(NewColumns(records[0]), records, env);
    }
  }
}

=== FILE: sqltypes.dfy ===
/** `Column.getType` and its helpers: turning a finished column state into
    the SQL type of its `CREATE TABLE` line. */
module SqlTypes {
  import opened Values
  import opened Column

  /** The type strings `getType` can return. `UnsizedVarchar` is the bare
      "VARCHAR" after the bucket loop, which no length reaches. */
  datatype SqlType =
    | Bit
    | Numeric(precision: int, scale: int)
    | BigInt
    | Integer
    | Varchar(size: int)
    | UnsizedVarchar
    | Clob

  /** The sizes the `getVarchar` loop tries, 8 doubling up to 2048. */
  const Buckets: set<int> := {8, 16, 32, 64, 128, 256, 512, 1024, 2048}

  /** The `getVarchar` loop from bucket `i` on (4096 is the value that ends it). */
  function FirstBucket(i: int, length: int): (t: SqlType)
    requires i in Buckets || i == 4096
    ensures t.Varchar? || t == UnsizedVarchar
    ensures t == UnsizedVarchar <==> forall b :: b in Buckets && b >= i ==> b < length
    ensures t.Varchar? ==> t.size in Buckets && i <= t.size && length <= t.size
    ensures t.Varchar? ==> forall b :: b in Buckets && i <= b < t.size ==> b < length
    decreases 4096 - i
  {
    if i > 2048 then UnsizedVarchar
    else if i >= length then Varchar(i)
    else FirstBucket(i * 2, length)
  }

  /** `getVarchar`: CLOB past 2048 bytes, otherwise the least bucket that
      holds the longest value. */
  function GetVarchar(length: int): (t: SqlType)
    ensures t == Clob <==> length > 2048
    ensures t != UnsizedVarchar
    ensures length <= 2048 ==> t.Varchar? && t.size in Buckets && t.size >= length
    ensures t.Varchar? ==> forall b :: b in Buckets && b >= length ==> t.size <= b
  {
    if length > 2048 then Clob else FirstBucket(8, length)
  }

  /** `getIntegerType` as written: it consults the double bounds, not the
      integer ones. */
  function GetIntegerType(smallestDouble: real, largestDouble: real): (t: SqlType)
    ensures t == BigInt || t == Integer
    ensures t == BigInt <==> smallestDouble <= IntMin as real || largestDouble >= IntMax as real
  {
    if smallestDouble <= IntMin as real then BigInt
    else if largestDouble >= IntMax as real then BigInt
    else Integer
  }

  function Min(a: int, b: int): int {
    if a < b then a else b
  }

  function Abs(x: real): real {
    if x < 0.0 then -x else x
  }

  function MaxReal(a: real, b: real): real {
    if a < b then b else a
  }

  /** The `(long)` cast of a double: truncation toward zero, saturating at
      the ends of the long range. */
  function LongCast(x: real): (n: int)
    ensures InLong(n)
  {
    if x >= LongMax as real then LongMax
    else if x <= LongMin as real then LongMin
    else if x >= 0.0 then x.Floor
    else -((-x).Floor)
  }

  /** `getPrecision`: the longer `Double.toString` of the two bounds,
      clamped to 12..38. */
  function GetPrecision(st: ColState, env: Env): (p: int)
    ensures 12 <= p <= 38
    ensures 12 < p < 38 ==> p == |env.showDouble(st.smallestDouble)| || p == |env.showDouble(st.largestDouble)|
  {
    var length := Max(|env.showDouble(st.smallestDouble)|, |env.showDouble(st.largestDouble)|);
    Max(Min(38, length), 12)
  }

  /** The integral part of the larger bound magnitude, as `getScale` casts it. */
  function IntegralMagnitude(st: ColState): (n: int)
    ensures 0 <= n <= LongMax
  {
    LongCast(MaxReal(Abs(st.smallestDouble), Abs(st.largestDouble)))
  }

  /** `getScale`: the precision less the digits of the integral part of the
      larger magnitude, capped at 8 (and not floored at 0). */
  function GetScale(st: ColState, env: Env): (s: int)
    ensures s <= 8 && s < GetPrecision(st, env)
  {
    Min(GetPrecision(st, env) - |IntText(IntegralMagnitude(st))|, 8)
  }

  /** When both `Double.toString` texts are at most 12 characters the
      precision is 12, so an integral part of k + 1 digits leaves a scale of
      11 - k, capped at 8: negative from 10^12 up. */
  lemma ScaleOfShortTexts(st: ColState, env: Env, k: nat)
    requires |env.showDouble(st.smallestDouble)| <= 12 && |env.showDouble(st.largestDouble)| <= 12
    requires Pow10(k) <= IntegralMagnitude(st) < Pow10(k + 1)
    ensures GetPrecision(st, env) == 12
    ensures GetScale(st, env) == Min(11 - k, 8)
    ensures GetScale(st, env) < 0 <==> k >= 12
  {
    NatTextLength(IntegralMagnitude(st), k);
  }

  /** `Column.getType`: BIT first, then NUMERIC, then the integer types,
      and text last. */
  function GetType(st: ColState, env: Env): (t: SqlType)
    ensures st.boolean == Yes ==> t == Bit
    ensures t.Numeric? ==> 12 <= t.precision <= 38 && t.scale <= 8 && t.scale < t.precision
    ensures t.Varchar? ==> t.size in Buckets && t.size >= st.length
    ensures t == Clob ==> st.length > 2048
    ensures t != UnsizedVarchar
    // each branch answers what its helper answers
    ensures st.boolean != Yes && st.numeric == Yes && st.decimal == Yes ==> t == Numeric(GetPrecision(st, env), GetScale(st, env))
    ensures st.boolean != Yes && st.numeric == Yes && st.decimal != Yes ==> t == GetIntegerType(st.smallestDouble, st.largestDouble)
    ensures st.boolean != Yes && st.numeric != Yes ==> t == GetVarchar(st.length)
  {
    if st.boolean == Yes then Bit
    else if st.numeric == Yes && st.decimal == Yes then Numeric(GetPrecision(st, env), GetScale(st, env))
    else if st.numeric == Yes then GetIntegerType(st.smallestDouble, st.largestDouble)
    else GetVarchar(st.length)
  }

  /** On every state the fold can reach, the integer branch always answers
      INT (the double bounds it reads are still zero), so BIGINT never
      appears; and each type is chosen by exactly the flags below. */
  lemma ResolvedTypeShape(st: ColState, env: Env)
    requires Inv(st)
    ensures GetType(st, env) != BigInt
    ensures GetType(st, env) == Bit <==> st.boolean == Yes
    ensures GetType(st, env) == Integer <==> st.boolean != Yes && st.numeric == Yes && st.decimal == No
    ensures GetType(st, env).Numeric? <==> st.boolean != Yes && st.numeric == Yes && st.decimal == Yes
    ensures GetType(st, env).Varchar? || GetType(st, env) == Clob <==> st.boolean != Yes && st.numeric != Yes
  {
  }

  /** The text `getType` returns. */
  function TypeText(t: SqlType): string {
    match t
    case Bit => "BIT"
    case Numeric(p, s) => "NUMERIC(" + IntText(p) + "," + IntText(s) + ")"
    case BigInt => "BIGINT"
    case Integer => "INT"
    case Varchar(n) => "VARCHAR(" + IntText(n) + ")"
    case UnsizedVarchar => "VARCHAR"
    case Clob => "CLOB"
  }

  /** An in-range element belongs to its sequence. */
  lemma IndexedIn(s: string, k: int)
    ensures 0 <= k < |s| ==> s[k] in s
  {
  }

  /** A mark that the second head lacks cannot sit earlier in the first. */
  lemma MarkNotEarlier(a: string, b: string, a': string, b': string, mark: char)
    requires mark !in a'
    requires a + [mark] + b == a' + [mark] + b'
    ensures |a'| <= |a|
  {
    var s := a + [mark] + b;
    assert s[|a|] == mark;
    IndexedIn(a', |a|);
  }

  /** A text cut at the first occurrence of a mark that neither head holds
      splits the same way on both sides. */
  lemma SplitAtMark(a: string, b: string, a': string, b': string, mark: char)
    requires mark !in a && mark !in a'
    requires a + [mark] + b == a' + [mark] + b'
    ensures a == a' && b == b'
  {
    MarkNotEarlier(a, b, a', b', mark);
    MarkNotEarlier(a', b', a, b, mark);
    var s := a + [mark] + b;
    assert a == s[..|a|] == a';
    assert b == s[|a| + 1..] == b';
  }

  /** The digits of an integer's text hold no comma. */
  lemma CommaNotInIntText(i: int)
    ensures ',' !in IntText(i)
  {
    var s := IntText(i);
    if i < 0 {
      assert forall k :: 1 <= k < |s| ==> s[k] == NatText(-i)[k - 1];
    }
  }

  /** Equal texts with the same wrapping have the same middle. */
  lemma Unwrap(pre: string, x: string, y: string, post: string)
    requires pre + x + post == pre + y + post
    ensures x == y
  {
    var s := pre + x + post;
    assert x == s[|pre|..|s| - |post|];
  }

  /** The NUMERIC text as its wrapping around "precision,scale". */
  lemma NumericTextParts(p: int, q: int)
    ensures TypeText(Numeric(p, q)) == "NUMERIC(" + (IntText(p) + [','] + IntText(q)) + ")"
  {
  }

  /** Only a NUMERIC type prints a text starting with 'N'. */
  lemma NumericHead(b: SqlType)
    requires TypeText(b)[0] == 'N'
    ensures b.Numeric?
  {
  }

  /** A NUMERIC text gives back its precision and scale. */
  lemma NumericTextInjective(p: int, q: int, b: SqlType)
    requires TypeText(Numeric(p, q)) == TypeText(b)
    ensures b == Numeric(p, q)
  {
    NumericTextParts(p, q);
    NumericHead(b);
    var Numeric(p', q') := b;
    NumericTextParts(p', q');
    Unwrap("NUMERIC(", IntText(p) + [','] + IntText(q), IntText(p') + [','] + IntText(q'), ")");
    CommaNotInIntText(p);
    CommaNotInIntText(p');
    SplitAtMark(IntText(p), IntText(q), IntText(p'), IntText(q'), ',');
    IntTextInjective(p, p');
    IntTextInjective(q, q');
  }

  /** A sized VARCHAR text gives back its size. */
  lemma VarcharTextInjective(n: int, b: SqlType)
    requires TypeText(Varchar(n)) == TypeText(b)
    ensures b == Varchar(n)
  {
    var s := TypeText(b);
    assert |s| > 8 && s[0] == 'V';
    assert b.Varchar?;
    assert IntText(n) == s[8..|s| - 1] == IntText(b.size);
    IntTextInjective(n, b.size);
  }

  /** Distinct column types print as distinct DDL texts, so the statement
      names the type that was inferred. */
  lemma TypeTextInjective(a: SqlType, b: SqlType)
    ensures TypeText(a) == TypeText(b) <==> a == b
  {
    if TypeText(a) == TypeText(b) {
      var s := TypeText(a);
      match a
      case Numeric(p, q) => NumericTextInjective(p, q, b);
      case Varchar(n) => VarcharTextInjective(n, b);
      case Bit => assert |s| == 3 && s[1] == 'I' && s[2] == 'T';
      case BigInt => assert |s| == 6 && s[0] == 'B';
      case Integer => assert |s| == 3 && s[0] == 'I';
      case UnsizedVarchar => assert |s| == 7 && s[0] == 'V';
      case Clob => assert s[0] == 'C';
    }
  }
}

=== FILE: values.dfy ===
/** The values a record can hold, their `toString` renderings, and the JDK
    conversions the column analysis relies on: `Long.toString`,
    `Long.parseLong` and the byte length of `String.getBytes()`. */
module Values {
  import opened Results

  /** A JSON value as the record iterator hands it over:
      `Int` stands for the integral `Number`s (Integer, Long, BigInteger),
      `Dec` for the floating ones (Float, Double, BigDecimal), carried by
      their `toString` text. */
  datatype Value =
    | Null
    | Bool(b: bool)
    | Int(i: int)
    | Dec(text: string)
    | Str(s: string)

  const LongMin: int := -0x8000_0000_0000_0000
  const LongMax: int := 0x7FFF_FFFF_FFFF_FFFF
  const IntMin: int := -0x8000_0000
  const IntMax: int := 0x7FFF_FFFF

  predicate InLong(n: int) {
    LongMin <= n <= LongMax
  }

  predicate IsDigit(c: char) {
    '0' <= c <= '9'
  }

  predicate AllDigits(s: string) {
    forall i :: 0 <= i < |s| ==> IsDigit(s[i])
  }

  function DigitValue(c: char): (d: nat)
    requires IsDigit(c)
    ensures d < 10
  {
    (c as int) - ('0' as int)
  }

  function DigitChar(d: nat): (c: char)
    requires d < 10
    ensures IsDigit(c) && DigitValue(c) == d
  {
    (('0' as int) + d) as char
  }

  /** Decimal digits of a natural number, without leading zeros. */
  function NatText(n: nat): (s: string)
    ensures |s| > 0 && AllDigits(s)
    ensures s[0] == '0' ==> n == 0
  {
    if n < 10 then [DigitChar(n)] else NatText(n / 10) + [DigitChar(n % 10)]
  }

  /** The value of a run of decimal digits. */
  function DigitsValue(s: string): nat
    requires AllDigits(s)
  {
    if |s| == 0 then 0 else DigitsValue(s[..|s| - 1]) * 10 + DigitValue(s[|s| - 1])
  }

  lemma {:induction false} DigitsValueOfNatText(n: nat)
    ensures DigitsValue(NatText(n)) == n
  {
    if n >= 10 {
      var s := NatText(n / 10) + [DigitChar(n % 10)];
      assert s[..|s| - 1] == NatText(n / 10);
      DigitsValueOfNatText(n / 10);
    }
  }

  function Pow10(k: nat): (p: nat)
    ensures p >= 1
  {
    if k == 0 then 1 else 10 * Pow10(k - 1)
  }

  lemma {:induction false} Pow10Add(a: nat, b: nat)
    ensures Pow10(a + b) == Pow10(a) * Pow10(b)
  {
    if a > 0 {
      Pow10Add(a - 1, b);
    }
  }

  /** A number with k + 1 digits is written with k + 1 characters. */
  lemma {:induction false} NatTextLength(n: nat, k: nat)
    requires Pow10(k) <= n < Pow10(k + 1)
    ensures |NatText(n)| == k + 1
  {
    if k > 0 {
      assert Pow10(k) == 10 * Pow10(k - 1);
      assert Pow10(k - 1) <= n / 10 < Pow10(k);
      NatTextLength(n / 10, k - 1);
    }
  }

  /** `Long.toString` (and `Integer.toString`, `BigInteger.toString`). */
  function IntText(i: int): (s: string)
    ensures |s| > 0
  {
    if i < 0 then "-" + NatText(-i) else NatText(i)
  }

  /** Distinct integers print as distinct texts: the digits give back the
      magnitude and the leading '-' gives back the sign. */
  lemma IntTextInjective(i: int, j: int)
    requires IntText(i) == IntText(j)
    ensures i == j
  {
    if i < 0 && j < 0 {
      assert NatText(-i) == IntText(i)[1..] == IntText(j)[1..] == NatText(-j);
      DigitsValueOfNatText(-i);
      DigitsValueOfNatText(-j);
    } else if i >= 0 && j >= 0 {
      DigitsValueOfNatText(i);
      DigitsValueOfNatText(j);
    }
  }

  /** `Long.parseLong`: an optional sign, at least one digit, nothing else,
      and a value inside the 64-bit range; otherwise NumberFormatException. */
  function ParseLong(s: string): (r: Option<int>)
    ensures r.Some? ==> InLong(r.value)
    ensures r.Some? ==> |s| > 0 && (s[0] == '-' || s[0] == '+' || IsDigit(s[0]))
    ensures r.Some? ==> forall i :: 0 < i < |s| ==> IsDigit(s[i])
    // a sign alone is not a number
    ensures r.Some? ==> exists i :: 0 <= i < |s| && IsDigit(s[i])
    // in-range digits, signed or not, parse to their decimal value
    ensures |s| > 0 && AllDigits(s) && InLong(DigitsValue(s)) ==> r == Some(DigitsValue(s))
    ensures |s| > 1 && s[0] == '+' && AllDigits(s[1..]) && InLong(DigitsValue(s[1..])) ==> r == Some(DigitsValue(s[1..]))
    ensures |s| > 1 && s[0] == '-' && AllDigits(s[1..]) && InLong(-(DigitsValue(s[1..]) as int)) ==> r == Some(-(DigitsValue(s[1..]) as int))
    // and out-of-range digits throw
    ensures AllDigits(s) && !InLong(DigitsValue(s)) ==> r.None?
    ensures |s| > 0 && s[0] == '+' && AllDigits(s[1..]) && !InLong(DigitsValue(s[1..])) ==> r.None?
    ensures |s| > 0 && s[0] == '-' && AllDigits(s[1..]) && !InLong(-(DigitsValue(s[1..]) as int)) ==> r.None?
  {
    if |s| == 0 then None
    else
      var digits := if s[0] == '-' || s[0] == '+' then s[1..] else s;
      if |digits| == 0 || !AllDigits(digits) then None
      else
        var n: int := if s[0] == '-' then -(DigitsValue(digits) as int) else DigitsValue(digits);
        if InLong(n) then Some(n) else None
  }

  /** Parsing the text `Long.toString` produces gives the number back
      exactly when it fits in a long. */
  lemma ParseLongOfIntText(i: int)
    ensures ParseLong(IntText(i)) == (if InLong(i) then Some(i) else None)
  {
    var s := IntText(i);
    if i < 0 {
      assert s[1..] == NatText(-i);
      DigitsValueOfNatText(-i);
    } else {
      DigitsValueOfNatText(i);
    }
  }

  /** `toString` of a non-null value. */
  function ToText(v: Value): string
    requires !v.Null?
  {
    match v
    case Bool(b) => if b then "true" else "false"
    case Int(i) => IntText(i)
    case Dec(t) => t
    case Str(s) => s
  }

  /** Bytes one character takes in UTF-8. */
  function CharBytes(c: char): nat {
    if c as int < 0x80 then 1
    else if c as int < 0x800 then 2
    else if c as int < 0x1_0000 then 3
    else 4
  }

  /** `s.getBytes().length` under the UTF-8 default charset. */
  function Utf8Length(s: string): (n: nat)
    ensures |s| <= n <= 4 * |s|
  {
    if |s| == 0 then 0 else Utf8Length(s[..|s| - 1]) + CharBytes(s[|s| - 1])
  }

  predicate IsAscii(s: string) {
    forall i :: 0 <= i < |s| ==> s[i] as int < 0x80
  }

  lemma {:induction false} Utf8LengthOfAscii(s: string)
    requires IsAscii(s)
    ensures Utf8Length(s) == |s|
  {
    if |s| > 0 {
      Utf8LengthOfAscii(s[..|s| - 1]);
    }
  }
}
